=== FILE: README.md ===
# GoWSL `Cmd`: a Dafny model of command launching and output capture

GoWSL runs commands inside a WSL distro through `Cmd`, which mirrors the Go
standard library's `os/exec.Cmd` (`exec.go`). This project models two parts
of it as pure functions over immutable values and proves properties of them.

- **The stderr saver** (`prefixSuffixSaver`). This writer keeps the first N
  bytes and the last N bytes written to it. The last N are kept in a ring
  buffer. `Bytes` joins the two halves, with a
  `"\n... omitting K bytes ...\n"` marker between them when bytes were
  dropped. The model carries the whole write history as a lemma parameter
  (`PrefixSuffix.Abstracts`). The main theorem (`PrefixSuffix.SaverDigest`)
  says that any sequence of writes produces an independent reference
  function of the concatenated input (`PrefixSuffix.View`): the input
  itself when it fits in 2N bytes, else its first N bytes, the marker with
  the exact number of dropped bytes, and its last N bytes.
- **The command lifecycle.** This covers `Start`, `Wait`, `Run`, `Output`,
  `CombinedOutput` and the three `...Pipe` accessors, together with how
  each stream is resolved to a descriptor (`readerDescriptor`,
  `writerDescriptor`, `stdin`, `stdout`, `stderr`). The model works as a
  state machine over the `Cmd` record.
  - Everything the command asks of the outside world is an input:
    - registration of the distro;
    - a context that is already done;
    - failure to open the null device or a pipe;
    - the launch;
    - `Process.Wait`;
    - the context watcher;
    - each copy goroutine's result.
  - The resource invariant (`Streams.Tracked`) says:
    - every descriptor the command opens is new;
    - every such descriptor sits exactly once in `closeAfterStart` or
      `closeAfterWait`.
  - The main lifecycle theorems follow from it:
    - a `Start` that fails past its guards leaves nothing open;
    - a `Run` that gets past the guards of `Start` (registration, not
      yet started) leaves nothing open, whatever happens afterwards.

Modules:
- `Base`: bytes, `Option`, `Result`, `minInt`.
- `Decimal`: `strconv.FormatInt` in base 10 for non-negative values.
- `PrefixSuffix`: the saver.
- `Streams`: the `Cmd` record and its vocabulary.
- `CloseOnce`: the `closeOnce` wrapper.
- `Wiring`: descriptor resolution.
- `Lifecycle`: the public operations.

## Model

| member | source | states |
|---|---|---|
| Base.MinInt | exec.go:565-571 | The result is at most each argument and equals one of them. |
| Decimal.Format | exec.go:558 | The skipped count is written as a non-empty string of ASCII digits. The string has a leading zero only when it is exactly "0". |
| Decimal.ParseFormat | exec.go:558 | Reading the decimal digits back gives the original count, so the marker reports the count exactly. |
| Decimal.FormatInjective | exec.go:558 | Different counts give different markers. |
| PrefixSuffix.Fill | exec.go:535-543 | `fill` loses no bytes: the kept part followed by the returned remainder is `dst + p`. The destination grows to `min(N, len(dst)+len(p))`, and is left alone once it already holds N bytes. |
| PrefixSuffix.Overwrite | exec.go:522-528 | One pass of the ring loop, as `copy` does it: the chunk lands at `suffixOff` and every other byte of the ring stays. The offset advances by the chunk's length modulo N. The copied bytes are counted as skipped. The ring keeps its length and the prefix is untouched. |
| PrefixSuffix.OverwriteUnroll | exec.go:521-529 | One pass of the ring loop (copy at `suffixOff`, then advance and wrap) makes the unrolled ring drop its oldest bytes and end with the chunk. |
| PrefixSuffix.RingWrite | exec.go:520-529 | The ring loop keeps the ring's length and the prefix. It adds exactly `len(p)` to `skipped`. Read from `suffixOff` onwards, the ring holds the last N bytes of the old contents followed by `p`. |
| PrefixSuffix.Marker | exec.go:557-559 | The omission text is "\n... omitting ", then decimal digits, then " bytes ...\n". Reading the digits back gives exactly the number of skipped bytes. |
| PrefixSuffix.Trim | exec.go:512-517 | The overage step keeps exactly the last `min(len, N)` bytes of what is left, and counts every byte it cuts as skipped. |
| PrefixSuffix.Settle | exec.go:510-518 | Before the ring loop the saver is still well formed and every byte is accounted for, held or skipped or left for the ring. Bytes are left for the ring only when the suffix already holds N bytes. |
| PrefixSuffix.Write | exec.go:508-531 | `Write` returns `len(p)`, keeps the saver well formed (each half at most N bytes, the offset inside a full ring) and accounts for every byte: the prefix length plus the suffix length plus `skipped` grows by exactly `len(p)`. |
| PrefixSuffix.Accounting | exec.go:493-531 | In a saver that abstracts a history, the prefix is the history's first `min(N, len)` bytes, the byte counts add up to the history's length, and `skipped` is zero exactly when the history has at most 2N bytes. |
| PrefixSuffix.WriteAbstracts | exec.go:508-531 | A `Write` of `p` to a saver that abstracts history `h` gives one that abstracts `h + p`. The cases are: prefix still filling, suffix still filling, trim of the overage, and ring overwrite. |
| PrefixSuffix.WriteAllAbstracts | exec.go:508-531 | A sequence of writes is abstracted by the concatenation of the written chunks. |
| PrefixSuffix.Bytes | exec.go:546-563 | The result starts with the prefix and is at most 2N bytes plus the marker. |
| PrefixSuffix.BytesReconstructs | exec.go:546-563 | `Bytes` of a saver that abstracts `h` equals the reference view of `h`: `h` itself if at most 2N bytes, else the first N bytes, the marker with count `len(h) - 2N`, and the last N bytes. The exception is N = 0, where it is empty. |
| PrefixSuffix.BytesExact | exec.go:547-553 | With nothing skipped, `Bytes` returns the whole history. With no suffix allocated, it returns the prefix. |
| PrefixSuffix.SaverDigest | exec.go:493-563 | For any N and any sequence of writes into a new saver, `Bytes` is the reference view of everything written. |
| CloseOnce.Close | exec.go:218-235 | The first `Close` closes the file and returns its result. Later calls return the same result and do not close the file again. |
| CloseOnce.CloseSticky | exec.go:226-229 | A second `Close` returns the first's result, whatever the file would now report. |
| CloseOnce.CloseAll | exec.go:226-235 | A run of closes keeps the wrapper consistent and yields one result per call. |
| CloseOnce.CloseAllOnce | exec.go:226-235 | However many times a fresh wrapper is closed, the file is closed exactly once and every call returns the first result. |
| CloseOnce.ClosedStaysClosed | exec.go:226-229 | After the wrapper has fired, closes change nothing and repeat the recorded result. |
| Streams.Command | exec.go:62-71 | A new command holds the given text and nothing else: no streams, no process, `useCwd` off, empty closer and goroutine lists, nothing opened, closed or launched. It satisfies the resource invariant. |
| Streams.CloseDescriptors | exec.go:329-334 | Every closer in the list is closed. Errors are ignored, so nothing else about the command changes. |
| Streams.TrackedAdd | exec.go:362-368 | Opening new descriptors and filing each in exactly one closer list keeps the resource invariant. |
| Streams.ListsClosedAllClosed | exec.go:104-115 | Closing both closer lists of a command that satisfies the invariant leaves no descriptor it opened unclosed. |
| Wiring.OpenNull | exec.go:340-346 | A new null-device descriptor is opened and filed once, in `closeAfterStart` only. |
| Wiring.ReaderDescriptor | exec.go:338-377 | Resolving stdin fails exactly when the stream is not a pipe and the needed open fails, and then the command is unchanged. An unset stream gets a new null device, closed after start. A pipe file passes through untouched. Anything else gets one new pipe. Its read end goes to the launch and is closed after start. Its write end is closed after wait, and one goroutine copies the stream into it. |
| Wiring.WriterDescriptor | exec.go:381-418 | The same for stdout and stderr, with the ends swapped. The write end of the new pipe goes to the launch and is closed after start. The read end is closed after wait, and one goroutine copies it into the stream. |
| Wiring.ReaderDescriptorTracked | exec.go:338-377 | Resolving stdin keeps the resource invariant, and a descriptor it opens is new. |
| Wiring.WriterDescriptorTracked | exec.go:381-418 | Resolving stdout or stderr keeps the resource invariant, and a descriptor it opens is new. |
| Wiring.SetupStdin | exec.go:287-293 | `stdin` succeeds exactly when `readerDescriptor` does. It then records the resolver's descriptor as `stdinR` and keeps the resolver's changes to the command. On failure it returns the resolver's error and the command is unchanged. Only stdin-copying goroutines are added. |
| Wiring.SetupStdout | exec.go:295-302 | `stdout` succeeds exactly when `writerDescriptor` does. It then records the resolver's descriptor as `stdoutW`. On failure it returns the resolver's error and the command is unchanged. A stream that needs bridging adds exactly one goroutine, which copies into that stream. |
| Wiring.SetupStderr | exec.go:304-317 | A set `Stderr` equal to `Stdout` reuses the stdout descriptor without failing and adds no closer, goroutine or file. Otherwise `stderr` succeeds exactly when `writerDescriptor` does, records its descriptor as `stderrW`, and on failure returns its error with the command unchanged. |
| Lifecycle.SetupAll | exec.go:101-109 | The three resolutions run in order. A failing `stdin` is returned as is, so `stdout` and `stderr` never run. A failing `stdout` is returned as is, so `stderr` never runs. Otherwise the result is exactly what `stderr` returns on the command `stdin` and `stdout` produced. On success all three descriptors are set. The streams, the command text and the process are unchanged. |
| Lifecycle.SetupAllTracked | exec.go:101-109 | The three resolutions together keep the resource invariant. |
| Lifecycle.Start | exec.go:77-145 | Error priority: registration failure, then "not registered", then "already started", all with the command unchanged. A done context closes both of the command's current lists and changes nothing else. Otherwise the closer lists, goroutines and opened descriptors are exactly those the setup loop produced. A setup failure returns the setup error and makes no launch. Otherwise the launch primitive is called once with the three resolved descriptors and the command text. `Start` then succeeds exactly when the launch does, and otherwise returns the launch error. Every failure past the guards closes both lists and leaves no process. Success closes only `closeAfterStart` and records the process. No descriptor opened earlier is forgotten. |
| Lifecycle.StartTracked | exec.go:91-118 | `Start` keeps the resource invariant. When it fails past its guards, every descriptor the command opened, before or during this call, has been closed. |
| Lifecycle.DoneContextNeverLaunches | exec.go:91-99 | With the context already done, `Start` returns the context's error, never calls the launch primitive, and leaves no process. |
| Lifecycle.StartTwice | exec.go:87-89 | After a successful `Start`, another returns "already started" and changes nothing. |
| Lifecycle.StartAliasesStderr | exec.go:304-310 | When `Stderr` is the same stream as `Stdout`, the launch receives one descriptor for both. |
| Lifecycle.FirstError | exec.go:453-458 | The copy error is absent exactly when every goroutine succeeded. Otherwise it is the earliest failure in arrival order. |
| Lifecycle.Wait | exec.go:437-475 | Without a process it returns "not started". A second call returns "already called". Otherwise it marks the command finished, records the process state and the watcher's context error, closes `closeAfterWait`, and changes nothing else. |
| Lifecycle.WaitErrorPriority | exec.go:447-474 | The result is, in order of priority: the watcher's context error, the wait error, an exit error for a non-zero exit, then the first copy error. It is nil exactly when none of these occurred. |
| Lifecycle.WaitTwice | exec.go:442-444 | Any `Wait` after the first returns "already called" and changes nothing. |
| Lifecycle.Run | exec.go:482-488 | A failing `Start` is returned as is. After a successful `Start` the result is exactly what `Wait` returns, and the command ends finished with the launched process. |
| Lifecycle.RunClosesEverything | exec.go:77-145 | After `Run`, on every path past the guards, every descriptor the command opened, including those opened by the pipe accessors before the call, has been closed. |
| Lifecycle.StdinPipe | exec.go:199-216 | Fails with "already set" or "after process started", in that order, or else with the pipe's own error, and then changes nothing. On success one new pipe is opened. Its read end becomes `Stdin` and is closed after start. Its write end is handed out wrapped in `closeOnce`, and that same wrapper is what `Wait` closes. It succeeds exactly when stdin is unset, there is no process, and the pipe opens. |
| Lifecycle.StdoutPipe | exec.go:244-260 | Same guards, for stdout, and a pipe failure returns the pipe's own error with nothing changed. On success one new pipe is opened. Its write end becomes `Stdout` and is closed after start. Its read end, from the same pipe, is handed out and is the closer `Wait` uses. |
| Lifecycle.StderrPipe | exec.go:269-285 | Same guards, for stderr, and a pipe failure returns the pipe's own error with nothing changed. On success one new pipe is opened. Its write end becomes `Stderr` and is closed after start. Its read end, from the same pipe, is handed out and is the closer `Wait` uses. |
| Lifecycle.StdinPipeTracked | exec.go:207-215 | `StdinPipe` keeps the resource invariant. |
| Lifecycle.OutputPipeTracked | exec.go:252-259 | `StdoutPipe` and `StderrPipe` keep the resource invariant. |
| Lifecycle.Output | exec.go:150-174 | Fails with "Stdout already set" and changes nothing. Otherwise it runs with its own stdout buffer. It succeeds exactly when the run does. Any error other than an exit error, and any error at all with a caller-set `Stderr`, is the run's error unchanged. An exit error keeps the run's process state. It returns what was written to stdout when `Start` succeeded, and nothing otherwise. |
| Lifecycle.OutputCapturesStderr | exec.go:158-171 | When `Output` installed the saver and the run ended in an exit error, the error carries the reference view (32 KiB each side) of everything written to stderr. If `Start` itself failed, nothing was written and the carried bytes are empty. |
| Lifecycle.CombinedOutput | exec.go:178-191 | Fails with "Stdout already set", then "Stderr already set". Otherwise both streams are one buffer and the run's error is returned. The captured bytes are the buffer's contents if `Start` succeeded. |
| Lifecycle.CombinedOutputOneCopy | exec.go:304-310 | With one buffer for both streams, a successful `Start` (as `CombinedOutput`, exec.go:186-189, sets it up) schedules exactly one goroutine that copies into it. |

## Left out

- Goroutines, `errch`, `waitDone` and the watcher race: the model does not run anything concurrently.
  - Each copy goroutine's result is an input, in arrival order.
  - So is the watcher's `ctxErr`, as seen by `Wait`.
  - `Wait` takes one copy result per goroutine. It does not check the count, because it is the channel that enforces it.
- Operating-system calls are inputs, not modelled:
  - `os.Pipe` and opening the null device (their error, if any);
  - `fileType` (the `isPipe` flag of a caller's file);
  - `startProcess` (the launch result);
  - `Process.Wait`, `Process.Kill`;
  - `io.Copy`.
- `Distro.IsRegistered` is an input (its boolean or its error). The `Distro` type, the WSL API (`WslApi/`) and `wslexe_windows.go` are not part of this model.
- Wiring.PassesThrough: a pipe end created by a `...Pipe` accessor is assumed to be reported as a pipe by `fileType`, so it always passes through. If `fileType` failed or reported something else for such an end, the source would bridge it through a second pipe (exec.go:349-353); the model does not cover that case.
- A `Run` that fails the registration or already-started guard leaves open any pipe ends the `...Pipe` accessors opened, as the source does. `Lifecycle.RunClosesEverything` covers only runs past those guards.
- `interfaceEqual` is plain equality of stream values. Its panic recovery for non-comparable types is not modelled, because streams here are always comparable.
- `sync.Once` is modelled only by its effect (the first call runs, later calls do not). Its memory-ordering guarantees are not modelled.
- `Distro.Command` panics on a nil context, so the context is never nil. The `c.ctx != nil` tests in `Start` are always taken.
- The contents of the `Output` and `CombinedOutput` buffers are inputs (what the goroutines wrote). The model does not derive them from the process.
- The `err` result of `prefixSuffixSaver.Write` is left out: it is always nil.
- PrefixSuffix.Write: `skipped` is an unbounded natural. The source's `int64` could overflow only after 2^63 bytes.
- PrefixSuffix.Saver: `N` is a natural. A negative `N` makes Go's slicing panic. `Output` always uses 32768.
- A `Start` retried after a failed attempt keeps the closer and goroutine lists of the failed attempt, because the source never clears them. The model keeps them too, so the retry closes those descriptors again. Only a done context is proved to leave no process; no separate property about retries is stated.

## Notes

- With `N = 0` the suffix is never allocated, so `Bytes` returns the (empty) prefix with no omission marker, however many bytes were skipped. `PrefixSuffix.View` states this case explicitly. `Output` never uses `N = 0`.
- `Wait` closes `closeAfterWait` before choosing its error, on every path past its two guards. That is why `Lifecycle.RunClosesEverything` holds whatever the process and the goroutines report.

=== FILE: base.dfy ===
/** Shared vocabulary: bytes, optional values, fallible results, and the
    small integer and sequence helpers the rest of the model uses. */
module Base {

  /** A Go `byte`. */
  type byte = b: int | 0 <= b < 256

  /** Go's `nil`-or-value, used for errors (`nil` is `None`) and pointers. */
  datatype Option<+T> = None | Some(value: T)

  /** A Go `(value, err)` pair where exactly one side is meaningful. */
  datatype Result<+T, +E> = Ok(value: T) | Err(error: E)

  /** `minInt` (exec.go): the smaller of two integers. */
  function MinInt(a: int, b: int): (r: int)
    ensures r <= a && r <= b
    ensures r == a || r == b
  {
    if a < b then a else b
  }

  /** The bytes of a series of writes, in the order they were written. */
  function Flatten<T>(chunks: seq<seq<T>>): seq<T>
  {
    if |chunks| == 0 then [] else Flatten(chunks[..|chunks| - 1]) + chunks[|chunks| - 1]
  }

  /** Converts an ASCII string literal to bytes. */
  function Ascii(s: string): (r: seq<byte>)
    requires forall i :: 0 <= i < |s| ==> s[i] as int < 128
    ensures |r| == |s|
    ensures forall i :: 0 <= i < |s| ==> r[i] == s[i] as int
  {
    seq(|s|, i requires 0 <= i < |s| => s[i] as int as byte)
  }
}

=== FILE: closeonce.dfy ===
/** `closeOnce` (exec.go): the write end `StdinPipe` returns, which the
    caller and `Wait` may both close. The first `Close` closes the file and
    records its result; every later `Close` returns that result again. */
module CloseOnce {
  import opened Base
  import opened Streams

  /** The wrapped file, whether `sync.Once` has fired, the recorded error,
      and how many times the file's own `Close` ran. */
  datatype OnceFile = OnceFile(fd: Fd, done: bool, err: Option<Error>, fileCloses: nat)

  function Wrap(fd: Fd): OnceFile
  {
    OnceFile(fd, false, None, 0)
  }

  /** A wrapper the program can reach: the file was closed exactly when the
      `Once` fired, and an error is recorded only then. */
  predicate Consistent(o: OnceFile)
  {
    && o.fileCloses <= 1
    && (o.done <==> o.fileCloses == 1)
    && (!o.done ==> o.err.None?)
  }

  /** `Close`, given what the file's own `Close` would return if called now.
      It returns the first close's result, and the file is closed at most
      once however often the wrapper is. */
  function Close(o: OnceFile, fileResult: Option<Error>): (r: (OnceFile, Option<Error>))
    requires Consistent(o)
    ensures Consistent(r.0) && r.0.fd == o.fd && r.0.done
    ensures o.done ==> r == (o, o.err)
    ensures !o.done ==> r.1 == fileResult && r.0.fileCloses == 1
  {
    if o.done then (o, o.err)
    else
      var o' := o.(done := true, err := fileResult, fileCloses := o.fileCloses + 1);
      (o', o'.err)
  }

  /** The first result is sticky: a second `Close`, whatever the file would
      now report, returns what the first one did and closes nothing. */
  lemma CloseSticky(o: OnceFile, first: Option<Error>, second: Option<Error>)
    requires Consistent(o)
    ensures var (o1, e1) := Close(o, first);
            var (o2, e2) := Close(o1, second);
            e2 == e1 && o2.fileCloses == o1.fileCloses <= 1
  {
  }

  /** A run of `Close` calls, each given what the file would report at
      that moment; the wrapper after the run and the results, in order. */
  function CloseAll(o: OnceFile, fileResults: seq<Option<Error>>): (r: (OnceFile, seq<Option<Error>>))
    requires Consistent(o)
    ensures Consistent(r.0) && r.0.fd == o.fd && |r.1| == |fileResults|
    decreases |fileResults|
  {
    if |fileResults| == 0 then (o, [])
    else
      var (o1, e1) := Close(o, fileResults[0]);
      var rest := CloseAll(o1, fileResults[1..]);
      (rest.0, [e1] + rest.1)
  }

  /** However many times a fresh wrapper is closed, the file is closed
      exactly once and every call returns the first call's result. */
  lemma {:induction false} CloseAllOnce(fd: Fd, fileResults: seq<Option<Error>>)
    requires |fileResults| > 0
    ensures var (o, errs) := CloseAll(Wrap(fd), fileResults);
            && o.fileCloses == 1 && o.err == fileResults[0]
            && forall i :: 0 <= i < |errs| ==> errs[i] == fileResults[0]
  {
    var (o1, e1) := Close(Wrap(fd), fileResults[0]);
    ClosedStaysClosed(o1, fileResults[1..]);
  }

  /** Once the wrapper has fired, further closes change nothing and repeat
      the recorded result. */
  lemma {:induction false} ClosedStaysClosed(o: OnceFile, fileResults: seq<Option<Error>>)
    requires Consistent(o) && o.done
    ensures CloseAll(o, fileResults).0 == o
    ensures forall i :: 0 <= i < |fileResults| ==> CloseAll(o, fileResults).1[i] == o.err
    decreases |fileResults|
  {
    if |fileResults| > 0 {
      ClosedStaysClosed(o, fileResults[1..]);
    }
  }
}

=== FILE: decimal.dfy ===
/** `strconv.FormatInt(x, 10)` restricted to the non-negative values the
    prefix/suffix saver formats, with its inverse. */
module Decimal {
  import opened Base

  /** ASCII '0'. */
  const Zero: byte := 48

  predicate IsDigit(b: byte)
  {
    Zero <= b <= Zero + 9
  }

  /** Base-10 text of `x`: digits only, most significant first, no leading zero. */
  function Format(x: nat): (r: seq<byte>)
    ensures 1 <= |r|
    ensures forall i :: 0 <= i < |r| ==> IsDigit(r[i])
    ensures r[0] == Zero <==> x == 0
    ensures r[0] == Zero ==> |r| == 1
    decreases x
  {
    if x < 10 then [(Zero + x) as byte]
    else Format(x / 10) + [(Zero + x % 10) as byte]
  }

  /** Reads a string of decimal digits, most significant first. */
  function Parse(ds: seq<byte>): nat
    requires forall i :: 0 <= i < |ds| ==> IsDigit(ds[i])
  {
    if |ds| == 0 then 0
    else
      assert IsDigit(ds[|ds| - 1]);
      Parse(ds[..|ds| - 1]) * 10 + (ds[|ds| - 1] as int - Zero as int)
  }

  /** The text FormatInt produces reads back as the same number. */
  lemma {:induction false} ParseFormat(x: nat)
    ensures Parse(Format(x)) == x
    decreases x
  {
    if x >= 10 {
      var f := Format(x / 10);
      ParseFormat(x / 10);
      assert (f + [(Zero + x % 10) as byte])[..|f|] == f;
    }
  }

  /** Hence distinct numbers are formatted differently. */
  lemma FormatInjective(x: nat, y: nat)
    requires Format(x) == Format(y)
    ensures x == y
  {
    ParseFormat(x);
    ParseFormat(y);
  }
}

=== FILE: lifecycle.dfy ===
/** The `Cmd` lifecycle (exec.go `Start`, `Wait`, `Run`, `Output`,
    `CombinedOutput` and the `...Pipe` accessors) as pure transitions.

    Everything outside the command is an input: whether the distro is
    registered, whether the context is already done, whether each null
    device or pipe can be opened, what the launch returns, what
    `Process.Wait` returns, what the context watcher recorded, and what each
    copy goroutine reported, in the order the results arrived. */
module Lifecycle {
  import opened Base
  import opened Streams
  import opened Wiring
  import PrefixSuffix

  /** What `Start` learns from its collaborators. */
  datatype StartOracle = StartOracle(
    registered: Result<bool, Error>,  // Distro.IsRegistered
    ctxDone: Option<Error>,           // ctx.Err() if ctx.Done() is already closed
    stdinFail: Option<Error>,         // failure to open the null device or the pipe, per stream
    stdoutFail: Option<Error>,
    stderrFail: Option<Error>,
    launch: Result<nat, Error>)       // startProcess

  /** What `Wait` learns from its collaborators. */
  datatype WaitOracle = WaitOracle(
    wait: Result<ProcState, Error>,   // Process.Wait
    watcher: Option<Error>,           // ctxErr, if the watcher killed the process
    copies: seq<Option<Error>>)       // one result per goroutine, in arrival order

  /** A pipe end handed to the caller, or the error that prevented it. */
  datatype Handed = Handed(cmd: Cmd, res: Result<Closer, Error>)

  /** What `Output` and `CombinedOutput` return. */
  datatype Captured = Captured(cmd: Cmd, data: seq<byte>, err: Option<Error>)

  /** The loop over `stdin`, `stdout`, `stderr` in `Start`: the first
      failure stops it. */
  function SetupAll(c: Cmd, o: StartOracle): (r: Outcome)
    ensures c.created <= r.cmd.created
    ensures r.err.None? ==> r.cmd.stdinR.Some? && r.cmd.stdoutW.Some? && r.cmd.stderrW.Some?
    ensures c.goroutines <= r.cmd.goroutines
    ensures r.cmd.process == c.process && r.cmd.finished == c.finished
    ensures r.cmd.closed == c.closed && r.cmd.launches == c.launches
    ensures r.cmd.stdin == c.stdin && r.cmd.stdout == c.stdout && r.cmd.stderr == c.stderr
    ensures r.cmd.command == c.command && r.cmd.useCwd == c.useCwd
    ensures SetupStdin(c, o.stdinFail).err.Some? ==> r == SetupStdin(c, o.stdinFail)
    ensures var a := SetupStdin(c, o.stdinFail);
            a.err.None? && SetupStdout(a.cmd, o.stdoutFail).err.Some? ==> r == SetupStdout(a.cmd, o.stdoutFail)
    ensures var a := SetupStdin(c, o.stdinFail);
            var b := SetupStdout(a.cmd, o.stdoutFail);
            a.err.None? && b.err.None? ==> r == SetupStderr(b.cmd, o.stderrFail)
  {
    var a := SetupStdin(c, o.stdinFail);
    if a.err.Some? then a
    else
      var b := SetupStdout(a.cmd, o.stdoutFail);
      if b.err.Some? then b
      else SetupStderr(b.cmd, o.stderrFail)
  }

  lemma SetupAllTracked(c: Cmd, o: StartOracle)
    requires Tracked(c)
    ensures Tracked(SetupAll(c, o).cmd)
  {
    var a := SetupStdin(c, o.stdinFail);
    assert Tracked(a.cmd) by {
      ReaderDescriptorTracked(c, c.stdin, o.stdinFail);
      TrackedFrame(ReaderDescriptor(c, c.stdin, o.stdinFail).cmd, a.cmd);
    }
    if a.err.None? {
      var b := SetupStdout(a.cmd, o.stdoutFail);
      assert Tracked(b.cmd) by {
        WriterDescriptorTracked(a.cmd, a.cmd.stdout, o.stdoutFail);
        TrackedFrame(WriterDescriptor(a.cmd, a.cmd.stdout, o.stdoutFail).cmd, b.cmd);
      }
      if b.err.None? {
        var d := SetupStderr(b.cmd, o.stderrFail);
        assert Tracked(d.cmd) by {
          if b.cmd.stderr != Unset && b.cmd.stderr == b.cmd.stdout {
            TrackedFrame(b.cmd, d.cmd);
          } else {
            WriterDescriptorTracked(b.cmd, b.cmd.stderr, o.stderrFail);
            TrackedFrame(WriterDescriptor(b.cmd, b.cmd.stderr, o.stderrFail).cmd, d.cmd);
          }
        }
      }
    }
  }

  /** The guards `Start` checks before touching any descriptor. */
  predicate PassesGuards(c: Cmd, o: StartOracle)
  {
    o.registered == Ok(true) && c.process.None?
  }

  /** `Start`. The registration check comes first, before even the
      already-started check. Past the guards, an already-done context closes
      both lists and returns its error without launching; any setup or
      launch failure closes both lists; a launch closes `closeAfterStart`
      only and records the process. */
  function Start(c: Cmd, o: StartOracle): (r: Outcome)
    ensures o.registered.Err? ==> r == Outcome(c, Some(o.registered.error))
    ensures o.registered == Ok(false) ==> r == Outcome(c, Some(NotRegistered))
    ensures o.registered == Ok(true) && c.process.Some? ==> r == Outcome(c, Some(AlreadyStarted))
    ensures PassesGuards(c, o) && o.ctxDone.Some? ==>
              r.err == o.ctxDone && r.cmd == CloseBoth(c)
    ensures PassesGuards(c, o) && o.ctxDone.None? ==>
              var s := SetupAll(c, o).cmd;
              && r.cmd.created == s.created && r.cmd.nextFd == s.nextFd
              && r.cmd.closeAfterStart == s.closeAfterStart
              && r.cmd.closeAfterWait == s.closeAfterWait
              && r.cmd.goroutines == s.goroutines
    ensures c.created <= r.cmd.created
    ensures PassesGuards(c, o) && o.ctxDone.None? && SetupAll(c, o).err.Some? ==>
              r.err == SetupAll(c, o).err && r.cmd.launches == c.launches
    ensures PassesGuards(c, o) && o.ctxDone.None? && SetupAll(c, o).err.None? ==>
              var s := SetupAll(c, o).cmd;
              && (r.err.None? <==> o.launch.Ok?)
              && (o.launch.Err? ==> r.err == Some(o.launch.error))
              && r.cmd.launches
                 == c.launches + [Launch(s.stdinR.value, s.stdoutW.value, s.stderrW.value, c.command, c.useCwd)]
    ensures PassesGuards(c, o) && r.err.Some? ==>
              && r.cmd.process.None?
              && r.cmd.closed == c.closed + r.cmd.closeAfterStart + r.cmd.closeAfterWait
    ensures r.err.None? <==> PassesGuards(c, o) && r.cmd.process.Some?
    ensures r.err.None? ==>
              && r.cmd.closed == c.closed + r.cmd.closeAfterStart
              && o.launch.Ok? && r.cmd.process == Some(o.launch.value)
              && |r.cmd.launches| == |c.launches| + 1
    ensures |c.launches| <= |r.cmd.launches| <= |c.launches| + 1
    ensures c.goroutines <= r.cmd.goroutines && r.cmd.finished == c.finished
    ensures r.cmd.stdin == c.stdin && r.cmd.stdout == c.stdout && r.cmd.stderr == c.stderr
  {
    if o.registered.Err? then Outcome(c, Some(o.registered.error))
    else if !o.registered.value then Outcome(c, Some(NotRegistered))
    else if c.process.Some? then Outcome(c, Some(AlreadyStarted))
    else if o.ctxDone.Some? then Outcome(CloseBoth(c), o.ctxDone)
    else
      var w := SetupAll(c, o);
      if w.err.Some? then Outcome(CloseBoth(w.cmd), w.err)
      else
        var s := w.cmd;
        var call := Launch(s.stdinR.value, s.stdoutW.value, s.stderrW.value, s.command, s.useCwd);
        var s' := s.(launches := s.launches + [call]);
        if o.launch.Err? then Outcome(CloseBoth(s'), Some(o.launch.error))
        else Outcome(CloseDescriptors(s', s'.closeAfterStart).(process := Some(o.launch.value)), None)
  }

  /** `Start` keeps the resource invariant, and when it fails past its
      guards, nothing the command opened is left open. */
  lemma StartTracked(c: Cmd, o: StartOracle)
    requires Tracked(c)
    ensures Tracked(Start(c, o).cmd)
    ensures PassesGuards(c, o) && Start(c, o).err.Some? ==> AllClosed(Start(c, o).cmd)
    ensures PassesGuards(c, o) && Start(c, o).err.Some? ==>
              forall fd :: fd in c.created ==> fd in FdsOf(Start(c, o).cmd.closed)
  {
    var r := Start(c, o);
    if !PassesGuards(c, o) {
      assert r.cmd == c;
    } else if o.ctxDone.Some? {
      assert r.cmd == CloseBoth(c);
      TrackedFrame(c, r.cmd);
      ListsClosedAllClosed(r.cmd, c.closed);
    } else {
      StartTrackedPastContext(c, o);
    }
  }

  /** `StartTracked` once the context check has passed: what `Start` leaves
      has the lists and descriptors of its setup loop. */
  lemma StartTrackedPastContext(c: Cmd, o: StartOracle)
    requires Tracked(c) && PassesGuards(c, o) && o.ctxDone.None?
    ensures Tracked(Start(c, o).cmd)
    ensures Start(c, o).err.Some? ==> AllClosed(Start(c, o).cmd)
  {
    var r := Start(c, o);
    var w := SetupAll(c, o);
    SetupAllTracked(c, o);
    TrackedFrame(w.cmd, r.cmd);
    if r.err.Some? {
      ListsClosedAllClosed(r.cmd, c.closed);
    }
  }

  /** A context that is already done never reaches the launch primitive,
      and `Start` reports the context's error. */
  lemma DoneContextNeverLaunches(c: Cmd, o: StartOracle)
    requires PassesGuards(c, o) && o.ctxDone.Some?
    ensures Start(c, o).err == o.ctxDone
    ensures Start(c, o).cmd.launches == c.launches && Start(c, o).cmd.process.None?
  {
  }

  /** A second `Start` after a successful one fails with "already started"
      and leaves the command as it was. */
  lemma StartTwice(c: Cmd, o1: StartOracle, o2: StartOracle)
    requires Start(c, o1).err.None? && o2.registered == Ok(true)
    ensures Start(Start(c, o1).cmd, o2) == Outcome(Start(c, o1).cmd, Some(AlreadyStarted))
  {
  }

  /** When `Stderr` is the same stream as `Stdout`, a successful `Start`
      hands the launch primitive one descriptor for both. */
  lemma StartAliasesStderr(c: Cmd, o: StartOracle)
    requires c.stderr != Unset && c.stderr == c.stdout
    requires Start(c, o).err.None?
    ensures var l := Start(c, o).cmd.launches;
            l[|l| - 1].stderr == l[|l| - 1].stdout
  {
    var a := SetupStdin(c, o.stdinFail);
    var b := SetupStdout(a.cmd, o.stdoutFail);
    assert b.cmd.stderr == b.cmd.stdout;
  }

  /** The first error among the copy goroutines' results, in arrival order. */
  function FirstError(results: seq<Option<Error>>): (r: Option<Error>)
    ensures r.None? <==> forall i :: 0 <= i < |results| ==> results[i].None?
    ensures r.Some? ==> exists i :: 0 <= i < |results| && results[i] == r
                          && forall j :: 0 <= j < i ==> results[j].None?
  {
    if |results| == 0 then None
    else if results[0].Some? then results[0]
    else
      var r := FirstError(results[1..]);
      assert forall i :: 1 <= i < |results| ==> results[i] == results[1..][i - 1];
      r
  }

  /** `Wait`. It needs a started process and fails a second time; otherwise
      it marks the command finished, records the process state and closes
      `closeAfterWait`, whatever the outcome. */
  function Wait(c: Cmd, o: WaitOracle): (r: Outcome)
    ensures c.process.None? ==> r == Outcome(c, Some(NotStarted))
    ensures c.process.Some? && c.finished ==> r == Outcome(c, Some(WaitAlreadyCalled))
    ensures c.process.Some? && !c.finished ==>
              && r.cmd.finished
              && r.cmd.closed == c.closed + c.closeAfterWait
              && r.cmd.processState == (if o.wait.Ok? then Some(o.wait.value) else None)
              && r.cmd.ctxErr == o.watcher
              && r.cmd.(finished := c.finished, processState := c.processState,
                        ctxErr := c.ctxErr, closed := c.closed) == c
  {
    if c.process.None? then Outcome(c, Some(NotStarted))
    else if c.finished then Outcome(c, Some(WaitAlreadyCalled))
    else
      var state := if o.wait.Ok? then Some(o.wait.value) else None;
      var copyError := FirstError(o.copies);
      var c' := CloseDescriptors(c.(finished := true, processState := state, ctxErr := o.watcher),
                                 c.closeAfterWait);
      var err :=
        if c'.ctxErr.Some? then c'.ctxErr
        else if o.wait.Err? then Some(o.wait.error)
        else if !o.wait.value.Success() then Some(ExitError(o.wait.value, []))
        else copyError;
      Outcome(c', err)
  }

  /** The error priority of `Wait`: the context's error, then the error
      from waiting, then a non-zero exit, then the first copy error; and
      `Wait` succeeds exactly when none of these happened. */
  lemma WaitErrorPriority(c: Cmd, o: WaitOracle)
    requires c.process.Some? && !c.finished
    ensures var err := Wait(c, o).err;
            && (o.watcher.Some? ==> err == o.watcher)
            && (o.watcher.None? && o.wait.Err? ==> err == Some(o.wait.error))
            && (o.watcher.None? && o.wait.Ok? && !o.wait.value.Success() ==>
                  err == Some(ExitError(o.wait.value, [])))
            && (o.watcher.None? && o.wait.Ok? && o.wait.value.Success() && err.Some? ==>
                  exists i :: 0 <= i < |o.copies| && o.copies[i] == err
                              && forall j :: 0 <= j < i ==> o.copies[j].None?)
            && (err.None? <==>
                  && o.watcher.None? && o.wait.Ok? && o.wait.value.Success()
                  && forall i :: 0 <= i < |o.copies| ==> o.copies[i].None?)
  {
  }

  /** A second `Wait` fails with "already called" and leaves the recorded
      process state alone. */
  lemma WaitTwice(c: Cmd, o1: WaitOracle, o2: WaitOracle)
    requires c.process.Some?
    ensures var c1 := Wait(c, o1).cmd;
            Wait(c1, o2) == Outcome(c1, Some(WaitAlreadyCalled))
  {
  }

  /** `Run`: `Start`, then `Wait` only if `Start` succeeded. */
  function Run(c: Cmd, so: StartOracle, wo: WaitOracle): (r: Outcome)
    ensures Start(c, so).err.Some? ==> r == Start(c, so)
    ensures Start(c, so).err.None? ==> r == Wait(Start(c, so).cmd, wo)
    ensures c.created <= r.cmd.created
    ensures Start(c, so).err.None? && !c.finished ==>
              r.cmd.finished && r.cmd.process == Some(so.launch.value)
    ensures r.cmd.stdin == c.stdin && r.cmd.stdout == c.stdout && r.cmd.stderr == c.stderr
  {
    var s := Start(c, so);
    if s.err.Some? then s else Wait(s.cmd, wo)
  }

  /** After `Run`, every descriptor the command opened has been closed,
      whether `Start` failed past its guards or the command ran to the end. */
  lemma RunClosesEverything(c: Cmd, so: StartOracle, wo: WaitOracle)
    requires Tracked(c) && PassesGuards(c, so) && !c.finished
    ensures AllClosed(Run(c, so, wo).cmd)
    ensures forall fd :: fd in c.created ==> fd in FdsOf(Run(c, so, wo).cmd.closed)
  {
    StartTracked(c, so);
    var s := Start(c, so);
    if s.err.None? {
      var r := Wait(s.cmd, wo);
      assert r.cmd.closed == c.closed + r.cmd.closeAfterStart + r.cmd.closeAfterWait;
      assert Tracked(r.cmd) by {
        assert r.cmd.created == s.cmd.created && r.cmd.nextFd == s.cmd.nextFd;
        assert r.cmd.closeAfterStart == s.cmd.closeAfterStart;
        assert r.cmd.closeAfterWait == s.cmd.closeAfterWait;
      }
      ListsClosedAllClosed(r.cmd, c.closed);
    }
  }

  /** `StdinPipe`: a pipe whose read end becomes `Stdin` and is closed after
      launch, and whose write end is handed out wrapped in `closeOnce` and
      closed again by `Wait`. */
  function StdinPipe(c: Cmd, fail: Option<Error>): (r: Handed)
    ensures c.stdin != Unset ==> r == Handed(c, Err(AlreadySet(Stdin)))
    ensures c.stdin == Unset && c.process.Some? ==> r == Handed(c, Err(PipeAfterStart(Stdin)))
    ensures r.res.Err? ==> r.cmd == c
    ensures c.stdin == Unset && c.process.None? && fail.Some? ==> r == Handed(c, Err(fail.value))
    ensures r.res.Ok? <==> c.stdin == Unset && c.process.None? && fail.None?
    ensures r.res.Ok? ==>
              && Adds(c, r.cmd.(stdin := c.stdin), 1, 1, 0)
              && r.cmd.stdin == NativePipe(PipeRead(c.nextFd))
              && r.res.value == Once(PipeWrite(c.nextFd))
              && r.cmd.closeAfterStart[|c.closeAfterStart|] == Plain(PipeRead(c.nextFd))
              && r.cmd.closeAfterWait[|c.closeAfterWait|] == r.res.value
              && r.cmd.created == c.created + [PipeRead(c.nextFd), PipeWrite(c.nextFd)]
              && r.res.value.Once? && r.res.value in r.cmd.closeAfterWait
              && r.cmd.stdin.NativePipe? && Plain(r.cmd.stdin.fd) in r.cmd.closeAfterStart
  {
    if c.stdin != Unset then Handed(c, Err(AlreadySet(Stdin)))
    else if c.process.Some? then Handed(c, Err(PipeAfterStart(Stdin)))
    else if fail.Some? then Handed(c, Err(fail.value))
    else
      var pr, pw := PipeRead(c.nextFd), PipeWrite(c.nextFd);
      var c' := c.(stdin := NativePipe(pr), nextFd := c.nextFd + 1,
                   created := c.created + [pr, pw],
                   closeAfterStart := c.closeAfterStart + [Plain(pr)],
                   closeAfterWait := c.closeAfterWait + [Once(pw)]);
      Handed(c', Ok(Once(pw)))
  }

  /** `StdoutPipe` and `StderrPipe`: a pipe whose write end becomes the
      stream and is closed after launch, and whose read end is handed out and
      closed by `Wait`. */
  function OutputPipe(c: Cmd, slot: Slot, fail: Option<Error>): (r: Handed)
    requires slot != Stdin
  {
    if Get(c, slot) != Unset then Handed(c, Err(AlreadySet(slot)))
    else if c.process.Some? then Handed(c, Err(PipeAfterStart(slot)))
    else if fail.Some? then Handed(c, Err(fail.value))
    else
      var pr, pw := PipeRead(c.nextFd), PipeWrite(c.nextFd);
      var c' := c.(nextFd := c.nextFd + 1, created := c.created + [pr, pw],
                   closeAfterStart := c.closeAfterStart + [Plain(pw)],
                   closeAfterWait := c.closeAfterWait + [Plain(pr)]);
      var c'' := if slot == Stdout then c'.(stdout := NativePipe(pw)) else c'.(stderr := NativePipe(pw));
      Handed(c'', Ok(Plain(pr)))
  }

  function StdoutPipe(c: Cmd, fail: Option<Error>): (r: Handed)
    ensures c.stdout != Unset ==> r == Handed(c, Err(AlreadySet(Stdout)))
    ensures c.stdout == Unset && c.process.Some? ==> r == Handed(c, Err(PipeAfterStart(Stdout)))
    ensures r.res.Err? ==> r.cmd == c
    ensures c.stdout == Unset && c.process.None? && fail.Some? ==> r == Handed(c, Err(fail.value))
    ensures r.res.Ok? <==> c.stdout == Unset && c.process.None? && fail.None?
    ensures r.res.Ok? ==>
              && Adds(c, r.cmd.(stdout := c.stdout), 1, 1, 0)
              && r.cmd.stdout == NativePipe(PipeWrite(c.nextFd))
              && r.res.value == Plain(PipeRead(c.nextFd))
              && r.cmd.closeAfterStart[|c.closeAfterStart|] == Plain(PipeWrite(c.nextFd))
              && r.cmd.closeAfterWait[|c.closeAfterWait|] == r.res.value
              && r.cmd.created == c.created + [PipeRead(c.nextFd), PipeWrite(c.nextFd)]
              && r.res.value in r.cmd.closeAfterWait
              && r.cmd.stdout.NativePipe? && Plain(r.cmd.stdout.fd) in r.cmd.closeAfterStart
  {
    OutputPipe(c, Stdout, fail)
  }

  function StderrPipe(c: Cmd, fail: Option<Error>): (r: Handed)
    ensures c.stderr != Unset ==> r == Handed(c, Err(AlreadySet(Stderr)))
    ensures c.stderr == Unset && c.process.Some? ==> r == Handed(c, Err(PipeAfterStart(Stderr)))
    ensures r.res.Err? ==> r.cmd == c
    ensures c.stderr == Unset && c.process.None? && fail.Some? ==> r == Handed(c, Err(fail.value))
    ensures r.res.Ok? <==> c.stderr == Unset && c.process.None? && fail.None?
    ensures r.res.Ok? ==>
              && Adds(c, r.cmd.(stderr := c.stderr), 1, 1, 0)
              && r.cmd.stderr == NativePipe(PipeWrite(c.nextFd))
              && r.res.value == Plain(PipeRead(c.nextFd))
              && r.cmd.closeAfterStart[|c.closeAfterStart|] == Plain(PipeWrite(c.nextFd))
              && r.cmd.closeAfterWait[|c.closeAfterWait|] == r.res.value
              && r.cmd.created == c.created + [PipeRead(c.nextFd), PipeWrite(c.nextFd)]
              && r.res.value in r.cmd.closeAfterWait
              && r.cmd.stderr.NativePipe? && Plain(r.cmd.stderr.fd) in r.cmd.closeAfterStart
  {
    OutputPipe(c, Stderr, fail)
  }

  /** The pipe accessors keep the resource invariant. */
  lemma StdinPipeTracked(c: Cmd, fail: Option<Error>)
    requires Tracked(c)
    ensures Tracked(StdinPipe(c, fail).cmd)
  {
    var pr, pw := PipeRead(c.nextFd), PipeWrite(c.nextFd);
    if StdinPipe(c, fail).res.Ok? {
      assert FdsOf([Plain(pr)] + [Once(pw)]) == [pr, pw];
      TrackedAdd(c, StdinPipe(c, fail).cmd, [Plain(pr)], [Once(pw)], [pr, pw]);
    }
  }

  lemma OutputPipeTracked(c: Cmd, slot: Slot, fail: Option<Error>)
    requires Tracked(c) && slot != Stdin
    ensures Tracked(OutputPipe(c, slot, fail).cmd)
  {
    var pr, pw := PipeRead(c.nextFd), PipeWrite(c.nextFd);
    if OutputPipe(c, slot, fail).res.Ok? {
      assert FdsOf([Plain(pw)] + [Plain(pr)]) == [pw, pr];
      TrackedAdd(c, OutputPipe(c, slot, fail).cmd, [Plain(pw)], [Plain(pr)], [pr, pw]);
    }
  }

  /** The command `Output` runs: stdout into its own buffer, and stderr into
      a prefix/suffix saver when the caller left it unset. */
  function OutputCmd(c: Cmd): Cmd
  {
    c.(stdout := Buffer(OutputStdout),
       stderr := if c.stderr == Unset then Buffer(OutputStderr) else c.stderr)
  }

  /** `Output`. `stdout` is what the stdout goroutine wrote into the buffer
      and `stderrWrites` the writes the stderr goroutine made into the saver;
      nothing is written when `Start` failed. When the saver was installed,
      an exit error carries its digest. */
  function Output(c: Cmd, so: StartOracle, wo: WaitOracle,
                  stdout: seq<byte>, stderrWrites: seq<seq<byte>>): (r: Captured)
    ensures c.stdout != Unset ==> r == Captured(c, [], Some(AlreadySet(Stdout)))
    ensures c.stdout == Unset ==>
              && r.cmd.stdout == Buffer(OutputStdout)
              && (r.err.None? <==> Run(OutputCmd(c), so, wo).err.None?)
              && (c.stderr != Unset ==> r.err == Run(OutputCmd(c), so, wo).err)
              && (Start(OutputCmd(c), so).err.Some? ==> r.data == [])
              && (Start(OutputCmd(c), so).err.None? ==> r.data == stdout)
              && (Run(OutputCmd(c), so, wo).err.Some? && !Run(OutputCmd(c), so, wo).err.value.ExitError? ==>
                    r.err == Run(OutputCmd(c), so, wo).err)
              && (Run(OutputCmd(c), so, wo).err.Some? && Run(OutputCmd(c), so, wo).err.value.ExitError? ==>
                    r.err.Some? && r.err.value.ExitError?
                    && r.err.value.state == Run(OutputCmd(c), so, wo).err.value.state)
  {
    if c.stdout != Unset then Captured(c, [], Some(AlreadySet(Stdout)))
    else
      var captureErr := c.stderr == Unset;
      var c1 := OutputCmd(c);
      var run := Run(c1, so, wo);
      var started := Start(c1, so).err.None?;
      var err :=
        if captureErr && run.err.Some? && run.err.value.ExitError? then
          var written := if started then stderrWrites else [];
          var saver := PrefixSuffix.WriteAll(PrefixSuffix.New(PrefixSuffix.OutputCapacity), written);
          Some(run.err.value.(stderr := PrefixSuffix.Bytes(saver)))
        else run.err;
      Captured(run.cmd, if started then stdout else [], err)
  }

  /** When `Output` installed the saver and the command exited unsuccessfully,
      the exit error carries the first and last 32 KiB of what the command
      wrote to stderr, with the omission marker between them, or all of it
      when it fits. When `Start` itself failed nothing was written, and the
      error (should a collaborator have returned an exit error) carries an
      empty digest. */
  lemma OutputCapturesStderr(c: Cmd, so: StartOracle, wo: WaitOracle,
                             stdout: seq<byte>, stderrWrites: seq<seq<byte>>)
    requires c.stdout == Unset && c.stderr == Unset
    requires Output(c, so, wo, stdout, stderrWrites).err.Some?
    requires Output(c, so, wo, stdout, stderrWrites).err.value.ExitError?
    ensures Start(OutputCmd(c), so).err.None? ==>
              Output(c, so, wo, stdout, stderrWrites).err.value.stderr
              == PrefixSuffix.View(PrefixSuffix.OutputCapacity, Flatten(stderrWrites))
    ensures Start(OutputCmd(c), so).err.Some? ==>
              Output(c, so, wo, stdout, stderrWrites).err.value.stderr == []
  {
    if Start(OutputCmd(c), so).err.None? {
      PrefixSuffix.SaverDigest(PrefixSuffix.OutputCapacity, stderrWrites);
    } else {
      PrefixSuffix.SaverDigest(PrefixSuffix.OutputCapacity, []);
    }
  }

  /** The command `CombinedOutput` runs: one buffer for stdout and stderr. */
  function CombinedCmd(c: Cmd): Cmd
  {
    c.(stdout := Buffer(CombinedBuffer), stderr := Buffer(CombinedBuffer))
  }

  /** `CombinedOutput`. `combined` is what the goroutines wrote into the
      shared buffer; nothing is written when `Start` failed. */
  function CombinedOutput(c: Cmd, so: StartOracle, wo: WaitOracle, combined: seq<byte>): (r: Captured)
    ensures c.stdout != Unset ==> r == Captured(c, [], Some(AlreadySet(Stdout)))
    ensures c.stdout == Unset && c.stderr != Unset ==> r == Captured(c, [], Some(AlreadySet(Stderr)))
    ensures c.stdout == Unset && c.stderr == Unset ==>
              && r.err == Run(CombinedCmd(c), so, wo).err
              && r.cmd.stdout == r.cmd.stderr == Buffer(CombinedBuffer)
              && (r.data == combined <==> Start(CombinedCmd(c), so).err.None? || combined == [])
  {
    if c.stdout != Unset then Captured(c, [], Some(AlreadySet(Stdout)))
    else if c.stderr != Unset then Captured(c, [], Some(AlreadySet(Stderr)))
    else
      var c1 := CombinedCmd(c);
      var run := Run(c1, so, wo);
      Captured(run.cmd, if Start(c1, so).err.None? then combined else [], run.err)
  }

  /** The number of goroutines that copy into the stream `s`. */
  function CopiesInto(tasks: seq<CopyTask>, s: Stream): nat
  {
    if |tasks| == 0 then 0
    else CopiesInto(tasks[..|tasks| - 1], s)
         + (if tasks[|tasks| - 1].CopyOut? && tasks[|tasks| - 1].writer == s then 1 else 0)
  }

  lemma {:induction false} CopiesIntoConcat(a: seq<CopyTask>, b: seq<CopyTask>, s: Stream)
    ensures CopiesInto(a + b, s) == CopiesInto(a, s) + CopiesInto(b, s)
    decreases |b|
  {
    if |b| == 0 {
      assert a + b == a;
    } else {
      var b' := b[..|b| - 1];
      assert (a + b)[..|a + b| - 1] == a + b';
      CopiesIntoConcat(a, b', s);
    }
  }

  lemma {:induction false} NoCopyOut(tasks: seq<CopyTask>, s: Stream)
    requires forall i :: 0 <= i < |tasks| ==> tasks[i].CopyIn?
    ensures CopiesInto(tasks, s) == 0
    decreases |tasks|
  {
    if |tasks| > 0 {
      NoCopyOut(tasks[..|tasks| - 1], s);
    }
  }

  /** With one buffer for both streams, a successful `Start` in
      `CombinedOutput` schedules exactly one goroutine that copies into it. */
  lemma CombinedOutputOneCopy(c: Cmd, so: StartOracle)
    requires c.stdout == Unset && c.stderr == Unset
    requires Start(CombinedCmd(c), so).err.None?
    ensures var c1 := CombinedCmd(c);
            var tasks := Start(c1, so).cmd.goroutines;
            && c1.goroutines <= tasks
            && CopiesInto(tasks[|c1.goroutines|..], Buffer(CombinedBuffer)) == 1
  {
    var c1 := CombinedCmd(c);
    StartSchedulesSetup(c1, so);
    SharedBufferOneCopy(c1, so);
  }

  /** The goroutines a successful `Start` leaves are those its setup loop
      scheduled. */
  lemma StartSchedulesSetup(c: Cmd, o: StartOracle)
    requires Start(c, o).err.None?
    ensures SetupAll(c, o).err.None?
    ensures Start(c, o).cmd.goroutines == SetupAll(c, o).cmd.goroutines
  {
  }

  /** When stdout and stderr are the same buffer, the setup loop schedules
      exactly one goroutine that copies into it. */
  lemma SharedBufferOneCopy(c: Cmd, o: StartOracle)
    requires c.stdout.Buffer? && c.stderr == c.stdout
    requires SetupAll(c, o).err.None?
    ensures var tasks := SetupAll(c, o).cmd.goroutines;
            c.goroutines <= tasks && CopiesInto(tasks[|c.goroutines|..], c.stdout) == 1
  {
    var a := SetupStdin(c, o.stdinFail);
    var b := SetupStdout(a.cmd, o.stdoutFail);
    assert SetupAll(c, o).cmd.goroutines == b.cmd.goroutines;
    OneCopyAfterCopyIns(c.goroutines, a.cmd.goroutines, b.cmd.goroutines, c.stdout);
  }

  /** A list that extends `g0` by stdin copies and then by one copy into
      `s` holds exactly one copy into `s` past `g0`. */
  lemma OneCopyAfterCopyIns(g0: seq<CopyTask>, g1: seq<CopyTask>, g2: seq<CopyTask>, s: Stream)
    requires g0 <= g1 <= g2 && |g2| == |g1| + 1
    requires forall i :: |g0| <= i < |g1| ==> g1[i].CopyIn?
    requires g2[|g1|].CopyOut? && g2[|g1|].writer == s
    ensures CopiesInto(g2[|g0|..], s) == 1
  {
    var fromStdin := g1[|g0|..];
    assert g2[|g0|..] == fromStdin + [g2[|g1|]];
    NoCopyOut(fromStdin, s);
    CopiesIntoConcat(fromStdin, [g2[|g1|]], s);
    assert [g2[|g1|]][..0] == [];
  }
}

=== FILE: saver.dfy ===
/** `prefixSuffixSaver` (exec.go): an `io.Writer` that keeps the first N and
    the last N bytes written to it, counts the bytes in between, and rebuilds
    a readable digest with an omission marker.

    The saver is an immutable value; `Write` returns the next one. The bytes
    written so far are not part of the state: the relation `Abstracts(s, h)`
    ties a saver to the history `h` it has absorbed, and the lemmas below
    prove that every write keeps that relation and that `Bytes` reconstructs
    the history from it. */
module PrefixSuffix {
  import opened Base
  import Decimal

  /** The capacity `Output` gives the saver it installs on stderr: 32 << 10. */
  const OutputCapacity: nat := 32768

  /** The fields of `prefixSuffixSaver`. A Go `nil` suffix is the empty
      sequence: an `append` of nothing onto `nil` stays `nil`, so the suffix
      is `nil` exactly when it is empty. */
  datatype Saver = Saver(
    n: nat,               // N, the size of the prefix and of the suffix
    prefix: seq<byte>,
    suffix: seq<byte>,    // a ring buffer once it holds N bytes
    suffixOff: nat,       // next ring position to overwrite
    skipped: nat)         // bytes no longer held

  /** The zero value with N set, as `Output` builds it. */
  function New(n: nat): Saver
  {
    Saver(n, [], [], 0, 0)
  }

  /** The bounds every saver reachable by writes satisfies. */
  predicate Valid(s: Saver)
  {
    && |s.prefix| <= s.n
    && |s.suffix| <= s.n
    && (s.suffixOff == 0 || s.suffixOff < |s.suffix| == s.n)
  }

  /** The ring read from the next position to overwrite, oldest byte first. */
  function Unroll(s: Saver): seq<byte>
    requires s.suffixOff <= |s.suffix|
  {
    s.suffix[s.suffixOff..] + s.suffix[..s.suffixOff]
  }

  /** `fill`: appends to `dst` as much of `p` as fits under N and returns the
      new `dst` with the part of `p` that did not fit. */
  function Fill(n: nat, dst: seq<byte>, p: seq<byte>): (r: (seq<byte>, seq<byte>))
    ensures r.0 + r.1 == dst + p
    ensures |dst| < n ==> |r.0| == MinInt(n, |dst| + |p|)
    ensures |dst| >= n ==> r.0 == dst
  {
    var remain := n - |dst|;
    if remain > 0 then
      var add := MinInt(|p|, remain);
      assert dst + p == (dst + p[..add]) + p[add..];
      (dst + p[..add], p[add..])
    else (dst, p)
  }

  /** One pass of the loop at the end of `Write`: `copy` of `chunk` into
      the ring at `suffixOff`, the copied bytes counted as skipped, and the
      offset wrapped to 0 when it reaches N. */
  function Overwrite(s: Saver, chunk: seq<byte>): (r: Saver)
    requires Valid(s)
    requires 0 < |chunk| <= |s.suffix| - s.suffixOff
    requires |s.suffix| == s.n
    ensures Valid(r) && r.n == s.n && r.prefix == s.prefix && |r.suffix| == |s.suffix|
    ensures forall i :: 0 <= i < |chunk| ==> r.suffix[s.suffixOff + i] == chunk[i]
    ensures forall i :: 0 <= i < |s.suffix| && !(s.suffixOff <= i < s.suffixOff + |chunk|) ==>
              r.suffix[i] == s.suffix[i]
    ensures r.suffixOff == (s.suffixOff + |chunk|) % s.n
    ensures r.skipped == s.skipped + |chunk|
  {
    var off := s.suffixOff + |chunk|;
    Splice(s.suffix, s.suffixOff, chunk);
    WrapOffset(off, s.n);
    s.(suffix := s.suffix[..s.suffixOff] + chunk + s.suffix[off..],
       suffixOff := if off == s.n then 0 else off,
       skipped := s.skipped + |chunk|)
  }

  /** `copy(a[at:], chunk)`: the chunk lands at `at`, every other byte stays. */
  lemma Splice(a: seq<byte>, at: nat, chunk: seq<byte>)
    requires at + |chunk| <= |a|
    ensures var b := a[..at] + chunk + a[at + |chunk|..];
            && |b| == |a|
            && (forall i :: 0 <= i < |chunk| ==> b[at + i] == chunk[i])
            && (forall i :: 0 <= i < |a| && !(at <= i < at + |chunk|) ==> b[i] == a[i])
  {
  }

  /** Advancing the offset to `off` and wrapping at N is `off % N`. */
  lemma WrapOffset(off: nat, n: nat)
    requires 0 < off <= n
    ensures off % n == (if off == n then 0 else off)
  {
  }

  /** A pass moves the oldest |chunk| bytes out of the ring and `chunk` in
      as the newest. */
  lemma OverwriteUnroll(s: Saver, chunk: seq<byte>)
    requires Valid(s)
    requires 0 < |chunk| <= |s.suffix| - s.suffixOff
    requires |s.suffix| == s.n
    ensures Unroll(Overwrite(s, chunk)) == (Unroll(s) + chunk)[|chunk|..]
  {
    var off := s.suffixOff;
    var k := |chunk|;
    var a, b, c := s.suffix[..off], s.suffix[off..off + k], s.suffix[off + k..];
    assert s.suffix[off..] == b + c;
    assert Unroll(s) + chunk == b + (c + a + chunk);
    var r := Overwrite(s, chunk);
    assert r.suffix == a + chunk + c;
    if off + k == s.n {
      assert c == [];
      assert Unroll(r) == a + chunk;
    } else {
      assert r.suffix[off + k..] == c;
      assert r.suffix[..off + k] == a + chunk;
    }
  }

  /** The loop at the end of `Write`: once the suffix is full, each pass
      overwrites the ring from `suffixOff` up to its end or up to the end of
      `p`, so the ring ends up holding the last N bytes of its old contents
      followed by `p`. */
  function RingWrite(s: Saver, p: seq<byte>): (r: Saver)
    requires Valid(s)
    requires |p| > 0 ==> 0 < |s.suffix| == s.n
    ensures Valid(r)
    ensures r.n == s.n && r.prefix == s.prefix && |r.suffix| == |s.suffix|
    ensures r.skipped == s.skipped + |p|
    ensures Unroll(r) == (Unroll(s) + p)[|p|..]
    ensures p == [] ==> r == s
    decreases |p|
  {
    if |p| == 0 then
      assert Unroll(s) + p == Unroll(s);
      s
    else
      var k := MinInt(|s.suffix| - s.suffixOff, |p|);
      var s' := Overwrite(s, p[..k]);
      OverwriteUnroll(s, p[..k]);
      ShiftTwice(Unroll(s), p[..k], p[k..]);
      assert p[..k] + p[k..] == p;
      RingWrite(s', p[k..])
  }

  /** Shifting a window over `a` and then over `b` is shifting it over
      `a + b`. */
  lemma ShiftTwice(u: seq<byte>, a: seq<byte>, b: seq<byte>)
    ensures ((u + a)[|a|..] + b)[|b|..] == (u + (a + b))[|a + b|..]
  {
    assert (u + a)[|a|..] + b == (u + (a + b))[|a|..];
  }

  /** `Write`: tops up the prefix, drops all but the last N of the remaining
      bytes, tops up the suffix and rotates the rest through the ring. It
      reports every byte of `p` as written (the returned count) and never
      fails, and the bytes held plus the bytes skipped grow by exactly |p|. */
  function Write(s: Saver, p: seq<byte>): (r: (Saver, nat))
    requires Valid(s)
    ensures Valid(r.0) && r.0.n == s.n
    ensures r.1 == |p|
    ensures |r.0.prefix| + |r.0.suffix| + r.0.skipped
         == |s.prefix| + |s.suffix| + s.skipped + |p|
  {
    var settled := Settle(s, p);
    (RingWrite(settled.0, settled.1), |p|)
  }

  /** The part of `Write` before the ring loop: the saver with both halves
      topped up and the overage counted, and the bytes left for the ring. */
  function Settle(s: Saver, p: seq<byte>): (r: (Saver, seq<byte>))
    requires Valid(s)
    ensures Valid(r.0) && r.0.n == s.n && r.0.suffixOff == s.suffixOff
    ensures |r.1| > 0 ==> 0 < |r.0.suffix| == s.n
    ensures |r.0.prefix| + |r.0.suffix| + r.0.skipped + |r.1|
         == |s.prefix| + |s.suffix| + s.skipped + |p|
  {
    var head := Fill(s.n, s.prefix, p);
    var trimmed := Trim(s.n, head.1);
    var tail := Fill(s.n, s.suffix, trimmed.0);
    (Saver(s.n, head.0, tail.0, s.suffixOff, s.skipped + trimmed.1), tail.1)
  }

  /** The overage step of `Write`: of what is left once the prefix is full,
      only the last N bytes can still end up in the suffix, and the bytes cut
      off in front are counted as skipped straight away. */
  function Trim(n: nat, p: seq<byte>): (r: (seq<byte>, nat))
    ensures r.0 == p[|p| - MinInt(|p|, n)..]
    ensures r.1 + |r.0| == |p|
  {
    var overage := |p| - n;
    if overage > 0 then (p[overage..], overage) else (p, 0)
  }

  /** The writes `io.Copy` performs, one per chunk, in order. */
  function WriteAll(s: Saver, chunks: seq<seq<byte>>): (r: Saver)
    requires Valid(s)
    ensures Valid(r) && r.n == s.n
    decreases |chunks|
  {
    if |chunks| == 0 then s
    else WriteAll(Write(s, chunks[0]).0, chunks[1..])
  }

  /** The text that stands for `k` dropped bytes:
      "\n... omitting " + decimal k + " bytes ...\n". */
  function Marker(k: nat): (r: seq<byte>)
    ensures |r| == 25 + |Decimal.Format(k)|
    ensures r[..14] == Ascii("\n... omitting ") && r[|r| - 11..] == Ascii(" bytes ...\n")
    ensures forall i :: 14 <= i < |r| - 11 ==> Decimal.IsDigit(r[i])
    ensures Decimal.Parse(r[14..|r| - 11]) == k
  {
    var r := Ascii("\n... omitting ") + Decimal.Format(k) + Ascii(" bytes ...\n");
    assert r[14..|r| - 11] == Decimal.Format(k);
    Decimal.ParseFormat(k);
    r
  }

  /** `Bytes`: the prefix alone when the suffix was never allocated, prefix
      and suffix when nothing was skipped, and otherwise the prefix, the
      omission marker and the ring in chronological order. */
  function Bytes(s: Saver): (r: seq<byte>)
    requires Valid(s)
    ensures |s.prefix| <= |r| && r[..|s.prefix|] == s.prefix
    ensures |r| <= 2 * s.n + |Marker(s.skipped)|
  {
    if s.suffix == [] then s.prefix
    else if s.skipped == 0 then s.prefix + s.suffix
    else s.prefix + Marker(s.skipped) + Unroll(s)
  }

  /** The refinement relation: `s` is the saver after the bytes `h` were
      written to `New(s.n)`. The prefix holds the first N bytes of `h`; up to
      2N bytes the suffix holds the rest verbatim; past that the ring holds
      the last N bytes and everything in between is counted as skipped. */
  ghost predicate Abstracts(s: Saver, h: seq<byte>)
  {
    && Valid(s)
    && s.prefix == h[..MinInt(s.n, |h|)]
    && if |h| <= 2 * s.n then
         s.suffix == h[|s.prefix|..] && s.suffixOff == 0 && s.skipped == 0
       else
         |s.suffix| == s.n && s.skipped == |h| - 2 * s.n && Unroll(s) == h[|h| - s.n..]
  }

  /** What `Bytes` should show for the history `h`, written without any
      reference to the saver's state: the history itself while it fits in
      2N bytes; otherwise its first N bytes, the marker for the number of
      bytes between them, and its last N bytes. With N = 0 the suffix is
      never allocated and the view is empty. */
  ghost function View(n: nat, h: seq<byte>): seq<byte>
  {
    if |h| <= 2 * n then h
    else if n == 0 then []
    else h[..n] + Marker(|h| - 2 * n) + h[|h| - n..]
  }

  /** A new saver abstracts the empty history. */
  lemma NewAbstractsEmpty(n: nat)
    ensures Abstracts(New(n), [])
  {
  }

  /** Byte accounting: held bytes plus skipped bytes equal the bytes written,
      and the prefix is the first min(N, T) bytes written. */
  lemma Accounting(s: Saver, h: seq<byte>)
    requires Abstracts(s, h)
    ensures |s.prefix| + |s.suffix| + s.skipped == |h|
    ensures s.prefix == h[..MinInt(s.n, |h|)]
    ensures s.skipped == 0 <==> |h| <= 2 * s.n
  {
  }

  /** The last N bytes of `a + b` depend only on the last N bytes of `b`
      when `b` alone has at least N of them. */
  lemma LastOfConcat(a: seq<byte>, b: seq<byte>, n: nat)
    requires n <= |b|
    ensures (a + b)[|a + b| - n..] == b[|b| - n..]
  {
  }

  /** Replacing the second part by a tail of it that is either all of it
      or at least `m` long does not change the last `m` bytes. */
  lemma LastOfTail(a: seq<byte>, p: seq<byte>, q: seq<byte>, m: nat)
    requires |q| <= |p| && q == p[|p| - |q|..]
    requires |q| == |p| || m <= |q|
    requires m <= |a| + |q|
    ensures (a + q)[|a + q| - m..] == (a + p)[|a + p| - m..]
  {
    if |q| < |p| {
      LastOfConcat(a, q, m);
      LastOfConcat(a, p, m);
    }
  }

  /** `Write` once the suffix holds N bytes: the prefix stays, every byte is
      counted as skipped, and the ring moves on by the whole write. */
  lemma WriteFullRing(s: Saver, p: seq<byte>)
    requires Valid(s) && |s.prefix| == s.n && |s.suffix| == s.n
    ensures var r := Write(s, p).0;
            && r.prefix == s.prefix && |r.suffix| == s.n
            && r.skipped == s.skipped + |p|
            && Unroll(r) == (Unroll(s) + p)[|p|..]
            && (p == [] ==> r == s)
  {
    assert Write(s, p).0 == RingWrite(Settle(s, p).0, Settle(s, p).1);
    RingAfterFullSettle(s, p);
  }

  /** The ring loop run on what settling a full saver leaves. */
  lemma RingAfterFullSettle(s: Saver, p: seq<byte>)
    requires Valid(s) && |s.prefix| == s.n && |s.suffix| == s.n
    ensures var r := RingWrite(Settle(s, p).0, Settle(s, p).1);
            && r.prefix == s.prefix && |r.suffix| == s.n
            && r.skipped == s.skipped + |p|
            && Unroll(r) == (Unroll(s) + p)[|p|..]
            && (p == [] ==> r == s)
  {
    SettleFullRing(s, p);
    RingAfterFullSettleUnroll(s, p);
  }

  lemma RingAfterFullSettleUnroll(s: Saver, p: seq<byte>)
    requires Valid(s) && |s.prefix| == s.n && |s.suffix| == s.n
    ensures Unroll(RingWrite(Settle(s, p).0, Settle(s, p).1)) == (Unroll(s) + p)[|p|..]
  {
    var t := Trim(s.n, p);
    var st := Settle(s, p);
    SettleFullRing(s, p);
    assert st.1 == t.0;
    assert Unroll(st.0) == Unroll(s);
    ShiftTail(Unroll(s), p, t.0);
  }

  /** Shifting a window over `q`, a tail of `p` that is all of `p` or at
      least as long as the window, gives the same as shifting it over `p`. */
  lemma ShiftTail(u: seq<byte>, p: seq<byte>, q: seq<byte>)
    requires |q| <= |p| && q == p[|p| - |q|..]
    requires |q| == |p| || |u| <= |q|
    ensures (u + q)[|q|..] == (u + p)[|p|..]
  {
    LastOfTail(u, p, q, |u|);
  }

  /** With both halves full, settling only counts the overage. */
  lemma SettleFullRing(s: Saver, p: seq<byte>)
    requires Valid(s) && |s.prefix| == s.n && |s.suffix| == s.n
    ensures var t := Trim(s.n, p);
            Settle(s, p) == (s.(skipped := s.skipped + t.1), t.0)
  {
    var t := Trim(s.n, p);
    assert Fill(s.n, s.prefix, p) == (s.prefix, p);
    assert Fill(s.n, s.suffix, t.0) == (s.suffix, t.0);
  }

  /** `Write` while the suffix holds fewer than N bytes: the prefix stays,
      the suffix grows by what fits, and anything beyond goes round the
      ring, which starts at offset 0. */
  lemma WriteFillingSuffix(s: Saver, p: seq<byte>)
    requires Valid(s) && |s.prefix| == s.n && |s.suffix| < s.n
    ensures var r := Write(s, p).0;
            && r.prefix == s.prefix
            && (|s.suffix| + |p| <= s.n ==>
                  r.suffix == s.suffix + p && r.suffixOff == 0 && r.skipped == s.skipped)
            && (|s.suffix| + |p| > s.n ==>
                  && |r.suffix| == s.n
                  && r.skipped == s.skipped + |s.suffix| + |p| - s.n
                  && Unroll(r) == (s.suffix + p)[|s.suffix| + |p| - s.n..])
  {
    if |s.suffix| + |p| <= s.n {
      WriteFitsSuffix(s, p);
    } else {
      WriteOverflowsSuffix(s, p);
    }
  }

  lemma WriteFitsSuffix(s: Saver, p: seq<byte>)
    requires Valid(s) && |s.prefix| == s.n && |s.suffix| + |p| <= s.n
    ensures Write(s, p).0 == s.(suffix := s.suffix + p)
  {
    var n := s.n;
    assert Fill(n, s.prefix, p) == (s.prefix, p);
    assert Trim(n, p) == (p, 0);
    assert Fill(n, s.suffix, p) == (s.suffix + p, []) by {
      assert p[..|p|] == p && p[|p|..] == [] && s.suffix + [] == s.suffix;
    }
    var st := Settle(s, p);
    assert st == (s.(suffix := s.suffix + p), []);
    assert Write(s, p).0 == RingWrite(st.0, st.1);
  }

  lemma WriteOverflowsSuffix(s: Saver, p: seq<byte>)
    requires Valid(s) && |s.prefix| == s.n && |s.suffix| < s.n < |s.suffix| + |p|
    ensures var r := Write(s, p).0;
            && r.prefix == s.prefix
            && |r.suffix| == s.n
            && r.skipped == s.skipped + |s.suffix| + |p| - s.n
            && Unroll(r) == (s.suffix + p)[|s.suffix| + |p| - s.n..]
  {
    var n := s.n;
    var t := Trim(n, p);
    var k := n - |s.suffix|;
    assert |t.0| == |p| || n <= |t.0|;
    assert k <= |t.0|;
    assert Fill(n, s.prefix, p) == (s.prefix, p);
    assert Fill(n, s.suffix, t.0) == (s.suffix + t.0[..k], t.0[k..]);
    var mid := s.(suffix := s.suffix + t.0[..k], skipped := s.skipped + t.1);
    assert Settle(s, p) == (mid, t.0[k..]);
    assert s.suffixOff == 0;
    assert Unroll(mid) == mid.suffix;
    assert mid.suffix + t.0[k..] == s.suffix + t.0;
    LastOfTail(s.suffix, p, t.0, n);
  }

  /** A write keeps the refinement relation once the suffix holds N bytes. */
  lemma AbstractsFullRing(s: Saver, h: seq<byte>, p: seq<byte>)
    requires Abstracts(s, h)
    requires |s.suffix| == s.n
    ensures Abstracts(Write(s, p).0, h + p)
  {
    var n := s.n;
    assert |h| >= 2 * n;
    assert Unroll(s) == h[|h| - n..] by {
      if |h| <= 2 * n {
        assert Unroll(s) == s.suffix;
      }
    }
    WriteFullRing(s, p);
    if p == [] {
      assert h + p == h;
    } else {
      RingStateAbstracts(s, h, p, Write(s, p).0);
    }
  }

  lemma RingStateAbstracts(s: Saver, h: seq<byte>, p: seq<byte>, r: Saver)
    requires Abstracts(s, h)
    requires |s.suffix| == s.n && p != [] && Unroll(s) == h[|h| - s.n..]
    requires Valid(r) && r.n == s.n && r.prefix == s.prefix && |r.suffix| == s.n
    requires r.skipped == s.skipped + |p|
    requires Unroll(r) == (Unroll(s) + p)[|p|..]
    ensures Abstracts(r, h + p)
  {
    var n := s.n;
    var h' := h + p;
    assert r.prefix == h'[..n];
    assert Unroll(r) == h'[|h'| - n..] by {
      assert h'[|h'| - n..] == (h[|h| - n..] + p)[|p|..];
    }
  }

  /** A write keeps the refinement relation while the suffix is filling. */
  lemma AbstractsFillingSuffix(s: Saver, h: seq<byte>, p: seq<byte>)
    requires Abstracts(s, h)
    requires |h| >= s.n && |s.suffix| < s.n
    ensures Abstracts(Write(s, p).0, h + p)
  {
    WriteFillingSuffix(s, p);
    SuffixStateAbstracts(s, h, p, Write(s, p).0);
  }

  /** The history side of `AbstractsFillingSuffix`: any saver that a
      write while the suffix is filling could produce abstracts `h + p`. */
  lemma SuffixStateAbstracts(s: Saver, h: seq<byte>, p: seq<byte>, r: Saver)
    requires Abstracts(s, h)
    requires |h| >= s.n && |s.suffix| < s.n
    requires Valid(r) && r.n == s.n && r.prefix == s.prefix
    requires |s.suffix| + |p| <= s.n ==>
               r.suffix == s.suffix + p && r.suffixOff == 0 && r.skipped == s.skipped
    requires |s.suffix| + |p| > s.n ==>
               && |r.suffix| == s.n
               && r.skipped == s.skipped + |s.suffix| + |p| - s.n
               && Unroll(r) == (s.suffix + p)[|s.suffix| + |p| - s.n..]
    ensures Abstracts(r, h + p)
  {
    assert s.suffix == h[s.n..];
    if |s.suffix| + |p| <= s.n {
      SuffixFitsAbstracts(s, h, p, r);
    } else {
      SuffixOverflowsAbstracts(s, h, p, r);
    }
  }

  lemma SuffixFitsAbstracts(s: Saver, h: seq<byte>, p: seq<byte>, r: Saver)
    requires Valid(s) && |h| >= s.n && s.prefix == h[..s.n] && s.suffix == h[s.n..]
    requires s.skipped == 0 && |s.suffix| + |p| <= s.n
    requires Valid(r) && r.n == s.n && r.prefix == s.prefix
    requires r.suffix == s.suffix + p && r.suffixOff == 0 && r.skipped == s.skipped
    ensures Abstracts(r, h + p)
  {
    var h' := h + p;
    assert r.prefix == h'[..s.n];
    assert r.suffix == h'[s.n..];
  }

  lemma SuffixOverflowsAbstracts(s: Saver, h: seq<byte>, p: seq<byte>, r: Saver)
    requires Valid(s) && |h| >= s.n && s.prefix == h[..s.n] && s.suffix == h[s.n..]
    requires s.skipped == 0 && |s.suffix| + |p| > s.n
    requires Valid(r) && r.n == s.n && r.prefix == s.prefix
    requires |r.suffix| == s.n
    requires r.skipped == s.skipped + |s.suffix| + |p| - s.n
    requires Unroll(r) == (s.suffix + p)[|s.suffix| + |p| - s.n..]
    ensures Abstracts(r, h + p)
  {
    var n := s.n;
    var h' := h + p;
    assert s.suffix + p == h'[n..];
    assert r.prefix == h'[..n];
    assert Unroll(r) == h'[|h'| - n..] by {
      assert h'[|h'| - n..] == h'[n..][|s.suffix| + |p| - n..];
    }
  }

  /** Every write keeps the refinement relation, extending the history by
      the written bytes. */
  lemma {:induction false} WriteAbstracts(s: Saver, h: seq<byte>, p: seq<byte>)
    requires Abstracts(s, h)
    ensures Abstracts(Write(s, p).0, h + p)
  {
    var n := s.n;
    if |h| >= n && |s.suffix| == n {
      AbstractsFullRing(s, h, p);
    } else if |h| >= n {
      AbstractsFillingSuffix(s, h, p);
    } else {
      AbstractsFillingPrefix(s, h, p);
    }
  }

  /** A write keeps the refinement relation while the prefix is filling. */
  lemma AbstractsFillingPrefix(s: Saver, h: seq<byte>, p: seq<byte>)
    requires Abstracts(s, h) && |h| < s.n
    ensures Abstracts(Write(s, p).0, h + p)
  {
    if |h| + |p| <= s.n {
      WriteWithinPrefix(s, p);
      PrefixOnlyAbstracts(s, h, p);
    } else {
      AbstractsPastPrefix(s, h, p);
    }
  }

  /** A write that overflows the prefix: the prefix fills up first, and the
      rest of the write then behaves as a write of the remainder on the saver
      whose history is the first N bytes. */
  lemma AbstractsPastPrefix(s: Saver, h: seq<byte>, p: seq<byte>)
    requires Abstracts(s, h) && |h| < s.n < |h| + |p|
    ensures Abstracts(Write(s, p).0, h + p)
  {
    var k := s.n - |h|;
    var s1 := s.(prefix := s.prefix + p[..k]);
    PrefixOnlyAbstracts(s, h, p[..k]);
    AbstractsFillingSuffix(s1, h + p[..k], p[k..]);
    WritePastPrefix(s, p);
    SplitAt(h, p, k);
    AbstractsTransport(Write(s1, p[k..]).0, Write(s, p).0, (h + p[..k]) + p[k..], h + p);
  }

  lemma AbstractsTransport(r1: Saver, r2: Saver, h1: seq<byte>, h2: seq<byte>)
    requires Abstracts(r1, h1) && r1 == r2 && h1 == h2
    ensures Abstracts(r2, h2)
  {
  }

  lemma SplitAt(a: seq<byte>, p: seq<byte>, k: nat)
    requires k <= |p|
    ensures (a + p[..k]) + p[k..] == a + p
  {
    assert p[..k] + p[k..] == p;
  }

  /** While the history fits in the prefix, the prefix is the history. */
  lemma PrefixOnlyAbstracts(s: Saver, h: seq<byte>, q: seq<byte>)
    requires Abstracts(s, h) && |h| + |q| <= s.n
    ensures Abstracts(s.(prefix := s.prefix + q), h + q)
  {
    assert s.prefix == h && s.suffix == [];
    assert (h + q)[..|h + q|] == h + q;
  }

  /** A write that fits in what is left of the prefix only extends it. */
  lemma WriteWithinPrefix(s: Saver, p: seq<byte>)
    requires Valid(s) && s.suffix == [] && |s.prefix| + |p| <= s.n
    ensures Write(s, p).0 == s.(prefix := s.prefix + p)
  {
    assert p[..|p|] == p && s.prefix + [] == s.prefix;
    assert Fill(s.n, s.prefix, p) == (s.prefix + p, []);
    assert Trim(s.n, []) == ([], 0);
    assert Fill(s.n, [], []) == ([], []);
    assert Settle(s, p) == (s.(prefix := s.prefix + p), []);
  }

  /** A write that overflows the prefix is the write of the rest to the
      saver whose prefix has been topped up. */
  lemma WritePastPrefix(s: Saver, p: seq<byte>)
    requires Valid(s) && |s.prefix| < s.n < |s.prefix| + |p|
    ensures var k := s.n - |s.prefix|;
            Write(s, p).0 == Write(s.(prefix := s.prefix + p[..k]), p[k..]).0
  {
    var n := s.n;
    var k := n - |s.prefix|;
    var full := s.prefix + p[..k];
    var rest := p[k..];
    assert Fill(n, s.prefix, p) == (full, rest);
    assert Fill(n, full, rest) == (full, rest);
    var s1 := s.(prefix := full);
    assert Settle(s, p) == Settle(s1, rest);
    assert Write(s, p).0 == RingWrite(Settle(s, p).0, Settle(s, p).1);
    assert Write(s1, rest).0 == RingWrite(Settle(s1, rest).0, Settle(s1, rest).1);
  }

  /** After any sequence of writes to a fresh saver, it abstracts their
      concatenation. */
  lemma {:induction false} WriteAllAbstracts(s: Saver, h: seq<byte>, chunks: seq<seq<byte>>)
    requires Abstracts(s, h)
    ensures Abstracts(WriteAll(s, chunks), h + Flatten(chunks))
    decreases |chunks|
  {
    if |chunks| == 0 {
      assert h + Flatten(chunks) == h;
    } else {
      WriteAbstracts(s, h, chunks[0]);
      WriteAllAbstracts(Write(s, chunks[0]).0, h + chunks[0], chunks[1..]);
      AppendFront(h, chunks);
    }
  }

  lemma AppendFront(h: seq<byte>, chunks: seq<seq<byte>>)
    requires |chunks| > 0
    ensures (h + chunks[0]) + Flatten(chunks[1..]) == h + Flatten(chunks)
  {
    FlattenFront(chunks);
  }

  lemma {:induction false} FlattenFront(chunks: seq<seq<byte>>)
    requires |chunks| > 0
    ensures Flatten(chunks) == chunks[0] + Flatten(chunks[1..])
    decreases |chunks|
  {
    if |chunks| > 1 {
      var last := |chunks| - 1;
      FlattenFront(chunks[..last]);
      assert chunks[..last][1..] == chunks[1..][..|chunks[1..]| - 1];
      assert chunks[..last][0] == chunks[0];
    } else {
      assert chunks[..0] == [];
      assert chunks[1..] == [];
    }
  }

  /** `Bytes` reconstructs the history exactly as `View` describes it. */
  lemma BytesReconstructs(s: Saver, h: seq<byte>)
    requires Abstracts(s, h)
    ensures Bytes(s) == View(s.n, h)
  {
    if |h| <= s.n {
      assert s.suffix == [];
    } else if |h| <= 2 * s.n {
      assert h[..s.n] + h[s.n..] == h;
    }
  }

  /** Whenever nothing was skipped, `Bytes` is the whole history; a suffix
      that was never allocated means the history is just the prefix. */
  lemma BytesExact(s: Saver, h: seq<byte>)
    requires Abstracts(s, h)
    ensures s.skipped == 0 ==> Bytes(s) == h
    ensures s.suffix == [] ==> Bytes(s) == s.prefix
  {
    BytesReconstructs(s, h);
  }

  /** What the saver produces for any series of writes to a fresh one: the
      whole output when it fits in 2N bytes, and otherwise its first N bytes,
      the marker counting the bytes in between, and its last N bytes. */
  lemma {:induction false} SaverDigest(n: nat, chunks: seq<seq<byte>>)
    ensures Bytes(WriteAll(New(n), chunks)) == View(n, Flatten(chunks))
  {
    NewAbstractsEmpty(n);
    WriteAllAbstracts(New(n), [], chunks);
    assert [] + Flatten(chunks) == Flatten(chunks);
    BytesReconstructs(WriteAll(New(n), chunks), Flatten(chunks));
  }
}

=== FILE: streams.dfy ===
/** The vocabulary of `Cmd` (exec.go): the streams a caller can attach, the
    descriptors the command hands to the launch primitive, the closers it
    keeps, its copy goroutines, its errors, and the command record itself. */
module Streams {
  import opened Base

  /** Identity of an in-memory reader or writer (a `bytes.Buffer`, a
      `prefixSuffixSaver`, ...). `Output` and `CombinedOutput` allocate their
      own buffers, which no caller-supplied stream can be equal to. */
  datatype BufferId = UserBuffer(id: nat) | OutputStdout | OutputStderr | CombinedBuffer

  /** An `*os.File`: the null device or a pipe end the command opened, or a
      file the caller supplied. */
  datatype Fd = DevNull(id: nat) | PipeRead(id: nat) | PipeWrite(id: nat) | UserFile(id: nat)

  /** The value of `Cmd.Stdin`, `Cmd.Stdout` or `Cmd.Stderr`. For a caller's
      file, `isPipe` is what `fileType` reports (an error counts as not a
      pipe); `NativePipe` is a pipe end created by a `...Pipe` accessor. */
  datatype Stream =
    | Unset
    | Buffer(buf: BufferId)
    | ExternalFile(id: nat, isPipe: bool)
    | NativePipe(fd: Fd)

  /** An `io.Closer` in `closeAfterStart` or `closeAfterWait`; `Once` is the
      `closeOnce` wrapper `StdinPipe` hands out. */
  datatype Closer = Plain(fd: Fd) | Once(fd: Fd)

  /** A copy goroutine: caller's reader into a pipe (stdin), or a pipe into
      the caller's writer (stdout, stderr). */
  datatype CopyTask = CopyIn(reader: Stream, pipeW: Fd) | CopyOut(pipeR: Fd, writer: Stream)

  datatype Slot = Stdin | Stdout | Stderr

  /** An `*os.ProcessState`; success means exit code 0. */
  datatype ProcState = ProcState(exitCode: int)
  {
    predicate Success()
    {
      exitCode == 0
    }
  }

  datatype Error =
    | NotRegistered                                  // "wsl: distro is not registered"
    | AlreadyStarted                                 // "wsl: already started"
    | NotStarted                                     // "wsl: not started"
    | WaitAlreadyCalled                              // "wsl: Wait was already called"
    | AlreadySet(slot: Slot)                         // "wsl: Stdout already set", ...
    | PipeAfterStart(slot: Slot)                     // "wsl: StdoutPipe after process started", ...
    | ExitError(state: ProcState, stderr: seq<byte>) // *exec.ExitError
    | External(code: nat)                            // an error from a collaborator or the context

  /** One call of the launch primitive, with the handles it was given. */
  datatype Launch = Launch(stdin: Fd, stdout: Fd, stderr: Fd, command: string, useCwd: bool)

  /** The fields of `Cmd`. The last four fields are bookkeeping of the model
      rather than of the program: the counter that names new descriptors,
      every descriptor the command opened, every `Close` it issued, and every
      call it made to the launch primitive. */
  datatype Cmd = Cmd(
    stdin: Stream,
    stdout: Stream,
    stderr: Stream,
    useCwd: bool,
    command: string,
    closeAfterStart: seq<Closer>,
    closeAfterWait: seq<Closer>,
    goroutines: seq<CopyTask>,
    stdinR: Option<Fd>,
    stdoutW: Option<Fd>,
    stderrW: Option<Fd>,
    process: Option<nat>,
    finished: bool,
    processState: Option<ProcState>,
    ctxErr: Option<Error>,
    nextFd: nat,
    created: seq<Fd>,
    closed: seq<Closer>,
    launches: seq<Launch>)

  /** `Distro.Command`: a command with only its text set. */
  function Command(command: string): (c: Cmd)
    ensures Tracked(c) && c.process.None? && !c.finished
    ensures c.stdin == c.stdout == c.stderr == Unset
    ensures c.command == command && !c.useCwd
    ensures c.closeAfterStart == [] && c.closeAfterWait == [] && c.goroutines == []
    ensures c.created == [] && c.closed == [] && c.launches == []
  {
    Cmd(Unset, Unset, Unset, false, command, [], [], [], None, None, None,
        None, false, None, None, 0, [], [], [])
  }

  function Get(c: Cmd, slot: Slot): Stream
  {
    match slot
    case Stdin => c.stdin
    case Stdout => c.stdout
    case Stderr => c.stderr
  }

  /** The descriptors a list of closers closes. */
  function FdsOf(cs: seq<Closer>): (r: seq<Fd>)
    ensures |r| == |cs|
    ensures forall i :: 0 <= i < |cs| ==> r[i] == cs[i].fd
  {
    seq(|cs|, i requires 0 <= i < |cs| => cs[i].fd)
  }

  lemma FdsOfConcat(a: seq<Closer>, b: seq<Closer>)
    ensures FdsOf(a + b) == FdsOf(a) + FdsOf(b)
  {
  }

  predicate Distinct<T(==)>(xs: seq<T>)
  {
    forall i, j :: 0 <= i < j < |xs| ==> xs[i] != xs[j]
  }

  /** The resource invariant: every descriptor the command opened is named
      below `nextFd`, was opened once, and sits in exactly one of the two
      closer lists, once. */
  ghost predicate Tracked(c: Cmd)
  {
    && (forall i :: 0 <= i < |c.created| ==> !c.created[i].UserFile? && c.created[i].id < c.nextFd)
    && Distinct(c.created)
    && multiset(FdsOf(c.closeAfterStart + c.closeAfterWait)) == multiset(c.created)
  }

  /** No descriptor the command opened is left unclosed. */
  ghost predicate AllClosed(c: Cmd)
  {
    forall fd :: fd in c.created ==> fd in FdsOf(c.closed)
  }

  /** `closeDescriptors`: closes every closer of the list, in order. Close
      errors are ignored, so the only effect is on the log of closes. */
  function CloseDescriptors(c: Cmd, closers: seq<Closer>): (r: Cmd)
    ensures forall i :: 0 <= i < |closers| ==> closers[i] in r.closed
    ensures r.(closed := c.closed) == c
  {
    c.(closed := c.closed + closers)
  }

  /** Both lists closed, as on every failure path of `Start`. */
  function CloseBoth(c: Cmd): (r: Cmd)
    ensures r.(closed := c.closed) == c
  {
    CloseDescriptors(CloseDescriptors(c, c.closeAfterStart), c.closeAfterWait)
  }

  /** The resource invariant depends only on the descriptors opened and
      on the two closer lists. */
  lemma TrackedFrame(c: Cmd, c': Cmd)
    requires Tracked(c)
    requires c'.created == c.created && c'.nextFd == c.nextFd
    requires c'.closeAfterStart == c.closeAfterStart && c'.closeAfterWait == c.closeAfterWait
    ensures Tracked(c')
  {
  }

  /** Once both lists of a tracked command have been closed, nothing it
      opened is left unclosed. */
  lemma ListsClosedAllClosed(c: Cmd, earlier: seq<Closer>)
    requires Tracked(c)
    requires c.closed == earlier + c.closeAfterStart + c.closeAfterWait
    ensures AllClosed(c)
  {
    FdsOfConcat(c.closeAfterStart, c.closeAfterWait);
    FdsOfConcat(earlier, c.closeAfterStart + c.closeAfterWait);
    assert c.closed == earlier + (c.closeAfterStart + c.closeAfterWait);
    forall fd | fd in c.created
      ensures fd in FdsOf(c.closed)
    {
      assert fd in multiset(c.created);
      assert fd in multiset(FdsOf(c.closeAfterStart + c.closeAfterWait));
    }
  }

  /** Opening descriptors named `c.nextFd` and filing each in one list
      keeps the resource invariant. */
  lemma TrackedAdd(c: Cmd, c': Cmd, toStart: seq<Closer>, toWait: seq<Closer>, newFds: seq<Fd>)
    requires Tracked(c)
    requires c'.closeAfterStart == c.closeAfterStart + toStart
    requires c'.closeAfterWait == c.closeAfterWait + toWait
    requires c'.created == c.created + newFds && c'.nextFd == c.nextFd + 1
    requires Distinct(newFds)
    requires forall i :: 0 <= i < |newFds| ==> !newFds[i].UserFile? && newFds[i].id == c.nextFd
    requires multiset(FdsOf(toStart + toWait)) == multiset(newFds)
    ensures Tracked(c')
  {
    FdsOfConcat(c.closeAfterStart + toStart, c.closeAfterWait + toWait);
    FdsOfConcat(c.closeAfterStart, toStart);
    FdsOfConcat(c.closeAfterWait, toWait);
    FdsOfConcat(c.closeAfterStart, c.closeAfterWait);
    FdsOfConcat(toStart, toWait);
    assert multiset(FdsOf(c'.closeAfterStart + c'.closeAfterWait))
        == multiset(FdsOf(c.closeAfterStart + c.closeAfterWait)) + multiset(FdsOf(toStart + toWait));
    forall i, j | 0 <= i < j < |c'.created|
      ensures c'.created[i] != c'.created[j]
    {
      if i < |c.created| && j >= |c.created| {
        assert c'.created[i].id < c.nextFd;
      }
    }
  }
}

=== FILE: wiring.dfy ===
/** Descriptor resolution and stream wiring (exec.go `readerDescriptor`,
    `writerDescriptor`, `stdin`, `stdout`, `stderr`): what the command hands
    the launch primitive for each stream, and which closers and copy
    goroutines that costs. Opening the null device and `os.Pipe` are
    fallible actions: each step takes the error the action would return, if
    any, and ignores it when no action is needed. */
module Wiring {
  import opened Base
  import opened Streams

  /** The outcome of a step of `Start` that may fail. */
  datatype Outcome = Outcome(cmd: Cmd, err: Option<Error>)

  /** A resolved descriptor, or the error that stopped resolution. */
  datatype Resolved = Resolved(cmd: Cmd, res: Result<Fd, Error>)

  /** A caller's file that `fileType` reports to be a pipe, or a pipe end
      from a `...Pipe` accessor: the launch primitive can take it as is. */
  predicate PassesThrough(s: Stream)
  {
    (s.ExternalFile? && s.isPipe) || s.NativePipe?
  }

  /** A stream the launch primitive cannot take: an in-memory buffer or a
      caller's file that is not (known to be) a pipe. */
  predicate NeedsBridge(s: Stream)
  {
    s.Buffer? || (s.ExternalFile? && !s.isPipe)
  }

  /** The file behind a stream that passes through. */
  function OwnFd(s: Stream): Fd
    requires PassesThrough(s)
  {
    if s.NativePipe? then s.fd else UserFile(s.id)
  }

  /** `c'` is `c` with `a` closers appended to `closeAfterStart`, `w` to
      `closeAfterWait` and `g` goroutines appended, possibly after opening
      descriptors; nothing else differs. */
  predicate Adds(c: Cmd, c': Cmd, a: nat, w: nat, g: nat)
  {
    && |c'.closeAfterStart| == |c.closeAfterStart| + a && c.closeAfterStart <= c'.closeAfterStart
    && |c'.closeAfterWait| == |c.closeAfterWait| + w && c.closeAfterWait <= c'.closeAfterWait
    && |c'.goroutines| == |c.goroutines| + g && c.goroutines <= c'.goroutines
    && c'.(closeAfterStart := c.closeAfterStart, closeAfterWait := c.closeAfterWait,
           goroutines := c.goroutines, nextFd := c.nextFd, created := c.created) == c
  }

  /** The null device, opened and filed for closing after launch. */
  function OpenNull(c: Cmd): (r: Resolved)
    ensures Adds(c, r.cmd, 1, 0, 0) && r.res.Ok?
    ensures r.cmd.closeAfterStart[|c.closeAfterStart|] == Plain(r.res.value)
    ensures r.res.value == DevNull(c.nextFd)
    ensures r.cmd.nextFd == c.nextFd + 1 && r.cmd.created == c.created + [r.res.value]
  {
    var f := DevNull(c.nextFd);
    Resolved(c.(nextFd := c.nextFd + 1, created := c.created + [f],
                closeAfterStart := c.closeAfterStart + [Plain(f)]), Ok(f))
  }

  /** A descriptor named `c.nextFd` was not opened before. */
  lemma NotCreated(c: Cmd, f: Fd)
    requires Tracked(c) && f.id == c.nextFd
    ensures f !in c.created
  {
    forall i | 0 <= i < |c.created|
      ensures c.created[i] != f
    {
      assert c.created[i].id < c.nextFd;
    }
  }

  /** `readerDescriptor`: resolves the stdin stream. */
  function ReaderDescriptor(c: Cmd, r: Stream, fail: Option<Error>): (res: Resolved)
    ensures c.created <= res.cmd.created
    ensures res.res.Err? <==> !PassesThrough(r) && fail.Some?
    ensures res.res.Err? ==> res.cmd == c && res.res.error == fail.value
    ensures r == Unset && res.res.Ok? ==>
              && Adds(c, res.cmd, 1, 0, 0)
              && res.res.value == DevNull(c.nextFd)
              && res.cmd.closeAfterStart[|c.closeAfterStart|] == Plain(res.res.value)
    ensures PassesThrough(r) ==> res == Resolved(c, Ok(OwnFd(r)))
    ensures NeedsBridge(r) && res.res.Ok? ==>
              && Adds(c, res.cmd, 1, 1, 1)
              && res.res.value == PipeRead(c.nextFd)
              && res.cmd.created == c.created + [PipeRead(c.nextFd), PipeWrite(c.nextFd)]
              && res.cmd.closeAfterStart[|c.closeAfterStart|] == Plain(PipeRead(c.nextFd))
              && res.cmd.closeAfterWait[|c.closeAfterWait|] == Plain(PipeWrite(c.nextFd))
              && res.cmd.goroutines[|c.goroutines|] == CopyIn(r, PipeWrite(c.nextFd))
  {
    if r == Unset then
      if fail.Some? then Resolved(c, Err(fail.value)) else OpenNull(c)
    else if PassesThrough(r) then Resolved(c, Ok(OwnFd(r)))
    else if fail.Some? then Resolved(c, Err(fail.value))
    else
      var pr, pw := PipeRead(c.nextFd), PipeWrite(c.nextFd);
      var c' := c.(nextFd := c.nextFd + 1, created := c.created + [pr, pw],
                   closeAfterStart := c.closeAfterStart + [Plain(pr)],
                   closeAfterWait := c.closeAfterWait + [Plain(pw)],
                   goroutines := c.goroutines + [CopyIn(r, pw)]);
      Resolved(c', Ok(pr))
  }

  /** `writerDescriptor`: resolves the stdout or stderr stream. */
  function WriterDescriptor(c: Cmd, w: Stream, fail: Option<Error>): (res: Resolved)
    ensures c.created <= res.cmd.created
    ensures res.res.Err? <==> !PassesThrough(w) && fail.Some?
    ensures res.res.Err? ==> res.cmd == c && res.res.error == fail.value
    ensures w == Unset && res.res.Ok? ==>
              && Adds(c, res.cmd, 1, 0, 0)
              && res.res.value == DevNull(c.nextFd)
              && res.cmd.closeAfterStart[|c.closeAfterStart|] == Plain(res.res.value)
    ensures PassesThrough(w) ==> res == Resolved(c, Ok(OwnFd(w)))
    ensures NeedsBridge(w) && res.res.Ok? ==>
              && Adds(c, res.cmd, 1, 1, 1)
              && res.res.value == PipeWrite(c.nextFd)
              && res.cmd.created == c.created + [PipeRead(c.nextFd), PipeWrite(c.nextFd)]
              && res.cmd.closeAfterStart[|c.closeAfterStart|] == Plain(PipeWrite(c.nextFd))
              && res.cmd.closeAfterWait[|c.closeAfterWait|] == Plain(PipeRead(c.nextFd))
              && res.cmd.goroutines[|c.goroutines|] == CopyOut(PipeRead(c.nextFd), w)
  {
    if w == Unset then
      if fail.Some? then Resolved(c, Err(fail.value)) else OpenNull(c)
    else if PassesThrough(w) then Resolved(c, Ok(OwnFd(w)))
    else if fail.Some? then Resolved(c, Err(fail.value))
    else
      var pr, pw := PipeRead(c.nextFd), PipeWrite(c.nextFd);
      var c' := c.(nextFd := c.nextFd + 1, created := c.created + [pr, pw],
                   closeAfterStart := c.closeAfterStart + [Plain(pw)],
                   closeAfterWait := c.closeAfterWait + [Plain(pr)],
                   goroutines := c.goroutines + [CopyOut(pr, w)]);
      Resolved(c', Ok(pw))
  }

  /** Resolution keeps the resource invariant, and any descriptor it
      opens is new. */
  lemma ReaderDescriptorTracked(c: Cmd, r: Stream, fail: Option<Error>)
    requires Tracked(c)
    ensures var d := ReaderDescriptor(c, r, fail);
            Tracked(d.cmd) && (d.res.Ok? && !PassesThrough(r) ==> d.res.value !in c.created)
  {
    var d := ReaderDescriptor(c, r, fail);
    if d.res.Ok? && !PassesThrough(r) {
      if r == Unset {
        OpenNullTracked(c);
      } else {
        var pr, pw := PipeRead(c.nextFd), PipeWrite(c.nextFd);
        assert FdsOf([Plain(pr)] + [Plain(pw)]) == [pr, pw];
        TrackedAdd(c, d.cmd, [Plain(pr)], [Plain(pw)], [pr, pw]);
        NotCreated(c, pr);
      }
    }
  }

  lemma WriterDescriptorTracked(c: Cmd, w: Stream, fail: Option<Error>)
    requires Tracked(c)
    ensures var d := WriterDescriptor(c, w, fail);
            Tracked(d.cmd) && (d.res.Ok? && !PassesThrough(w) ==> d.res.value !in c.created)
  {
    var d := WriterDescriptor(c, w, fail);
    if d.res.Ok? && !PassesThrough(w) {
      if w == Unset {
        OpenNullTracked(c);
      } else {
        var pr, pw := PipeRead(c.nextFd), PipeWrite(c.nextFd);
        assert FdsOf([Plain(pw)] + [Plain(pr)]) == [pw, pr];
        TrackedAdd(c, d.cmd, [Plain(pw)], [Plain(pr)], [pr, pw]);
        NotCreated(c, pw);
      }
    }
  }

  lemma OpenNullTracked(c: Cmd)
    requires Tracked(c)
    ensures Tracked(OpenNull(c).cmd) && OpenNull(c).res.value !in c.created
  {
    var f := DevNull(c.nextFd);
    assert FdsOf([Plain(f)] + []) == [f];
    TrackedAdd(c, OpenNull(c).cmd, [Plain(f)], [], [f]);
    NotCreated(c, f);
  }

  /** `stdin`: resolves `Stdin` into `stdinR`. */
  function SetupStdin(c: Cmd, fail: Option<Error>): (r: Outcome)
    ensures c.created <= r.cmd.created
    ensures var d := ReaderDescriptor(c, c.stdin, fail);
            && (r.err.None? <==> d.res.Ok?)
            && (r.err.None? ==> r.cmd.stdinR == Some(d.res.value) && r.cmd.(stdinR := c.stdinR) == d.cmd)
            && (r.err.Some? ==> r.err == Some(d.res.error))
    ensures r.err.Some? ==> r.cmd == c
    ensures c.goroutines <= r.cmd.goroutines
    ensures r.cmd.(stdinR := c.stdinR, closeAfterStart := c.closeAfterStart,
                   closeAfterWait := c.closeAfterWait, goroutines := c.goroutines,
                   nextFd := c.nextFd, created := c.created) == c
    ensures forall i :: |c.goroutines| <= i < |r.cmd.goroutines| ==> r.cmd.goroutines[i].CopyIn?
  {
    var d := ReaderDescriptor(c, c.stdin, fail);
    if d.res.Ok? then Outcome(d.cmd.(stdinR := Some(d.res.value)), None)
    else Outcome(d.cmd, Some(d.res.error))
  }

  /** `stdout`: resolves `Stdout` into `stdoutW`. */
  function SetupStdout(c: Cmd, fail: Option<Error>): (r: Outcome)
    ensures c.created <= r.cmd.created
    ensures var d := WriterDescriptor(c, c.stdout, fail);
            && (r.err.None? <==> d.res.Ok?)
            && (r.err.None? ==> r.cmd.stdoutW == Some(d.res.value) && r.cmd.(stdoutW := c.stdoutW) == d.cmd)
            && (r.err.Some? ==> r.err == Some(d.res.error))
    ensures r.err.Some? ==> r.cmd == c
    ensures c.goroutines <= r.cmd.goroutines
    ensures NeedsBridge(c.stdout) && r.err.None? ==>
              && |r.cmd.goroutines| == |c.goroutines| + 1
              && r.cmd.goroutines[|c.goroutines|].CopyOut?
              && r.cmd.goroutines[|c.goroutines|].writer == c.stdout
    ensures r.cmd.(stdoutW := c.stdoutW, closeAfterStart := c.closeAfterStart,
                   closeAfterWait := c.closeAfterWait, goroutines := c.goroutines,
                   nextFd := c.nextFd, created := c.created) == c
  {
    var d := WriterDescriptor(c, c.stdout, fail);
    if d.res.Ok? then Outcome(d.cmd.(stdoutW := Some(d.res.value)), None)
    else Outcome(d.cmd, Some(d.res.error))
  }

  /** `stderr`: when `Stderr` is set and equal to `Stdout` it reuses the
      stdout descriptor, adding no closer and no goroutine and needing no
      new file; otherwise it resolves `Stderr` into `stderrW`. */
  function SetupStderr(c: Cmd, fail: Option<Error>): (r: Outcome)
    ensures c.created <= r.cmd.created
    ensures r.err.None? ==> r.cmd.stderrW.Some? || (c.stderr == c.stdout && r.cmd.stderrW == c.stdoutW)
    ensures !(c.stderr != Unset && c.stderr == c.stdout) ==>
              var d := WriterDescriptor(c, c.stderr, fail);
              && (r.err.None? <==> d.res.Ok?)
              && (r.err.None? ==> r.cmd.stderrW == Some(d.res.value) && r.cmd.(stderrW := c.stderrW) == d.cmd)
              && (r.err.Some? ==> r.err == Some(d.res.error))
    ensures r.err.Some? ==> r.cmd == c
    ensures c.stderr != Unset && c.stderr == c.stdout ==>
              r.err.None? && Adds(c, r.cmd.(stderrW := c.stderrW), 0, 0, 0)
              && r.cmd.stderrW == c.stdoutW
    ensures c.goroutines <= r.cmd.goroutines
    ensures r.cmd.(stderrW := c.stderrW, closeAfterStart := c.closeAfterStart,
                   closeAfterWait := c.closeAfterWait, goroutines := c.goroutines,
                   nextFd := c.nextFd, created := c.created) == c
  {
    if c.stderr != Unset && c.stderr == c.stdout then
      Outcome(c.(stderrW := c.stdoutW), None)
    else
      var d := WriterDescriptor(c, c.stderr, fail);
      if d.res.Ok? then Outcome(d.cmd.(stderrW := Some(d.res.value)), None)
      else Outcome(d.cmd, Some(d.res.error))
  }
}
